=== FILE: README.md ===
# koa-cache-lite: a Dafny model of the caching decision engine

This project models the decision logic of koa-cache-lite, a Koa middleware
that caches responses per route. It also proves properties of that logic.
The model covers `index.js` and the Redis driver `lib/drivers/redis.js`:

- **Route normalisation** (`Routes`, `Setup`). Each configured route value
  becomes `{timeout, cacheKeyArgs, matcher}` or is dropped. A bare
  `"increasing"` creates the call counter. The adaptive step table is
  defaulted. Its duration strings ("30s", "5m", "2h", "1d") are rewritten to
  milliseconds, and the key list is captured before unparseable entries are
  deleted (`Duration`).
- **Matchers** (`Matcher`). A key with `:name` segments becomes a parameter
  pattern: `[A-z0-9]+` per segment and one optional trailing '/'. It is
  anchored at the start only when the key begins with '/'. A key with `*`
  becomes an unanchored `prefix.*suffix` in which only the first `*` is
  special.
- **Route selection** (`Selection`). One pass in declaration order. The first
  route whose key equals the path, or whose matcher accepts it, wins.
- **Cache key** (`CacheKey`). The key is the path, then optionally `#` and
  header values, then optionally `?` and query values.
- **Expiration policy** (`Expiry`). `setExpires` works on the call counter
  and the per-key TTL table. The counter reset clears only the counter.
- **Request dispatch** (`Dispatch`). Each request is passed through,
  invalidated and then passed through, served from the store, or fetched and
  stored. Store calls are returned as a list of operations.
- **Redis driver** (`RedisDriver`). This covers the retry strategy and its
  lock flag, `has`, and the expiry that `set` gives a key.

JavaScript values are modelled by `Js.Value`. That type keeps `undefined`,
booleans, integral numbers, `NaN` and strings apart. `Number(…)`, `isNaN` and
`===` are modelled over it, and the code's type-sensitive comparisons are
evaluated as JavaScript evaluates them.

Several behaviours are reproduced as the code has them, even where they look
unintended:

- An earlier pattern route beats a later exact route for the same path
  (`Selection.EarlierPatternBeatsLaterExact`).
- Suppose no route matches and the last declared route has no matcher. Then
  the loop runs out instead of passing through, and the request continues
  with the bare path as key and no TTL recorded (`Dispatch.Resolve`).
- A query list appends every query value, whatever names it lists
  (`CacheKey.QueryNamesIgnored`).
- The adaptive step test compares a number with an object-key string using
  `===`, so it never matches. An adaptive key keeps its first step's TTL for
  good (`Expiry.AdaptiveTtlStaysAtFirstStep`).
- A non-GET request deletes the bare request key, not the `:headers`/`:body`
  entries. Under the plain-map store of `Dispatch.ApplyOps`, the cached
  response therefore survives (`Dispatch.InvalidationKeepsCachedEntry`).

In these places the code does not do what a middleware of this kind is
usually expected to do. The model follows the code:

- Expected: the default table's keys are call-count thresholds, so calls 1
  and 2 get 1000 ms and calls 3 to 9 get 2000 ms. Code: every call gets
  1000 ms (`Expiry.DefaultScheduleIsFlat`).
- Expected: a mutating request deletes the stored entry. Code: under the
  plain-map store of `Dispatch.ApplyOps`, it does not.
- Expected: the stored header record carries a body-presence flag. Code: the
  capture loop skips `body` (index.js:211), so the record holds status,
  message and header only.
- Expected: the default timeout is configurable. Code: it is always set to
  5000 ms (index.js:10).
- Expected: exact matches take precedence over patterns, and no match means
  passthrough. Code: the first hit in declaration order wins, and the
  fall-through case above applies.
- Expected: a `true` timeout records the default TTL for the key. Code:
  `setExpires` leaves the TTL table untouched, and the driver falls back to
  the default when it finds no entry.
- Expected: parameter patterns are anchored. Code: the start anchor is added
  only when the key begins with '/'.

## Model

| member | source | states |
|---|---|---|
| Text.IndexOf | index.js:169 | `indexOf` returns the first occurrence at or after the start, and `None` only when there is no occurrence at all |
| Text.RemoveFirst | index.js:94-100 | `replace(u, '')` with a one-character pattern leaves a string without that character unchanged and otherwise removes exactly one character |
| Text.RemoveFirstAt | index.js:94-100 | the character removed is the first occurrence: the result is the text before it followed by the text after it |
| Duration.ParseDuration | index.js:92-105 | a string entry is deleted exactly when it does not end in a digit followed by s, m, h or d; a kept entry becomes a number or NaN |
| Duration.ParseWellFormed | index.js:93-100 | digits followed by a unit become N·1000, N·60000, N·3600000 or N·86400000 |
| Duration.ParseKeepsNaN | index.js:93-94 | "x5s" passes the suffix test and becomes NaN rather than being deleted; "5ms" is deleted |
| Duration.NormaliseSteps | index.js:91-106 | after normalisation no entry is a string, keys come from the original table, and every non-string entry is kept unchanged |
| Duration.NormaliseLookup | index.js:89-106 | the step table is rewritten key by key: a string becomes its duration or reads as undefined, and any other value is kept |
| Duration.NormaliseWithoutStrings | index.js:79-87 | a table with no strings, such as the default one, is left unchanged |
| Matcher.ClassBoundary | index.js:61 | the `[A-z0-9]` class includes `[ \ ] ^ _` and backtick, but excludes '/' and ':' |
| Matcher.Tokenize | index.js:61 | a key without ':' is spelled literally, one token per character; any rewritten pattern has at most as many tokens as the key has characters |
| Matcher.TokenizeParam | index.js:61 | a `:name` segment after a head without ':' becomes exactly one `[A-z0-9]+` token, with the head spelled literally before it and the rest of the key rewritten after it |
| Matcher.Compile | index.js:59-71 | a key gets a matcher exactly when it contains ':' or '*'; a '*' key gets a wildcard split at its first '*', which replaces any parameter pattern; a key with ':' and no '*' gets the parameter pattern of its rewritten tokens, anchored exactly when the key starts with '/' |
| Matcher.WildcardSearchComplete | index.js:68-71 | the leftmost-prefix search accepts a path exactly when the prefix occurs and the suffix occurs at or after the end of that prefix |
| Matcher.Test | index.js:142 | a wildcard matcher accepts a path exactly when the prefix occurs and the suffix occurs at or after its end; a parameter pattern accepts every path its tokens match from the start |
| Matcher.MatchHeadThenParam | index.js:60-64 | a literal head followed by one parameter matches exactly the head followed by a non-empty run of class characters |
| Matcher.MatchParamThen | index.js:60-64 | a literal head, one parameter and further tokens match exactly when the path starts with the head, a non-empty class run follows, and the further tokens match what remains after some such run |
| Matcher.MatchLits | index.js:60-64 | the literal part of a pattern matches exactly its own text |
| Matcher.MiddleParamKey | index.js:59-64 | for a key such as "/users/:id/posts", the tokens are head, one parameter and the literal tail, and they match exactly the head, a non-empty class run and the tail |
| Matcher.MiddleParamCompile | index.js:59-64 | such a key with no '*' compiles to the pattern head, parameter, literal tail, anchored exactly when the key starts with '/' |
| Matcher.MiddleParamAccepts | index.js:60-64 | that anchored pattern accepts a path exactly when it is the head, a non-empty class run and the tail, with one optional trailing '/'; every other path is rejected |
| Matcher.MiddleParamRoute | index.js:59-64 | a route key "/…:name…" with its parameter in the middle compiles to an anchored pattern whose test accepts exactly the head, a class run and the tail, with an optional trailing '/' |
| Matcher.UnanchoredSearch | index.js:62 | a pattern whose key does not start with '/' accepts a path exactly when the anchored pattern with the same tokens accepts some suffix of it |
| Matcher.SingleParamCompile | index.js:59-64 | a key '/…' plus ':name' with no '*' compiles to an anchored pattern: the head spelled literally, then one parameter token |
| Matcher.SingleParamAccepts | index.js:60-64 | that anchored pattern accepts a path exactly when it is the head plus one or more class characters, with one optional trailing '/' |
| Matcher.SingleParamKey | index.js:59-66 | for a key '/…' plus ':name', the compiled pattern accepts exactly the head plus one or more class characters, with one optional trailing '/' |
| Matcher.UnanchoredParamKey | index.js:59-66 | a ':name' key that does not start with '/' gets no start anchor, so it accepts its head and a parameter run after any leading text |
| Routes.NormaliseArg | index.js:50-56 | a string `headers`/`query` becomes a one-element list, and any other value is unchanged |
| Routes.KeepsScalar | index.js:15-18 | a non-object value survives exactly when it is a boolean, a number, "increasing" or a digit string; `undefined` and NaN are dropped, and the empty string survives because `isNaN("")` is false |
| Routes.NormaliseRoute | index.js:15-71 | a non-object value is kept exactly when it is boolean, "increasing" or numeric, and then becomes `{timeout: v}`; an object is dropped exactly when its `cacheKeyArgs` is an array; an absent `cacheKeyArgs` gives no key arguments, a string one becomes `{custom: s}`, and an object one has its `headers` and `query` normalised; the matcher is compiled from the key |
| Routes.NormaliseTable | index.js:13-72 | the route keys of the table are the configured keys with dropped ones removed, in order; no string arguments remain; each matcher is the compiled key |
| Routes.NormaliseKeepsEntry | index.js:13-72 | every entry that survives normalisation is in the table with its normalised value |
| Routes.NormaliseDropsEntry | index.js:15-42 | with distinct keys, a dropped entry's key appears nowhere in the table |
| Setup.Configure | index.js:6-106 | the counter exists exactly when some bare value is "increasing"; then the key list is the keys of the configured (or default) table taken before normalisation, every key of the normalised table reads as the normalised value of the original entry, and with no table configured the default table and its keys "1", "3", "10", "20", "50" are used; otherwise `opts.increasing` is left as configured |
| Expiry.MatchingStep | index.js:250-257 | the step loop returns only an index whose key is strictly equal to the count |
| Expiry.NoStepMatches | index.js:253 | no count is strictly equal to a step key, so the loop never matches |
| Expiry.SetExpires | index.js:235-267 | `false` refuses caching and changes nothing; `true` allows caching and changes nothing; "increasing" with a step table throws if no counter exists, and otherwise raises the count by one (or starts it at 1 with the first step's TTL) while keeping an existing TTL; any other value is stored verbatim as the key's TTL; no other key changes |
| Expiry.ResetCounters | index.js:109-112 | the reset empties the counter and keeps the TTL table |
| Expiry.AdaptiveTtlStaysAtFirstStep | index.js:244-262 | after n adaptive calls for a fresh key, the count is n and the TTL is still the first step's value |
| Expiry.DefaultFirstStep | index.js:78-89 | with the default table, the first step's TTL is 1000 ms |
| Expiry.DefaultScheduleIsFlat | index.js:244-262 | with the default table, every call of an adaptive key leaves a TTL of 1000 ms |
| Expiry.DeletedFirstStepGivesUndefined | index.js:259-262 | if the first configured step is a string that gets deleted, the first adaptive call records `undefined`, because the key list was captured before the deletion (index.js:89) |
| Expiry.ResetRestartsCount | index.js:109-112 | after a reset, the next adaptive call starts again at count 1 with the first step's TTL |
| CacheKey.AppendNamed | index.js:274-276 | the loop appends the listed headers' values in list order, with "undefined" for a missing header |
| CacheKey.AppendAll | index.js:283-294 | the loop appends every value in enumeration order, with no separator |
| CacheKey.SetRequestKey | index.js:269-302 | the source's appending loops build the key as path, then header part, then query part |
| CacheKey.KeyDependsOnListedValues | index.js:271-295 | requests that agree on the listed header values and the query values get the same key |
| CacheKey.QueryNamesIgnored | index.js:289-295 | the names in a query list are never read, and `custom` adds nothing |
| CacheKey.HeaderValuesCanCollide | index.js:274-276 | different header values can produce the same key, because values are joined without a separator |
| CacheKey.KeyLayoutExamples | index.js:269-301 | header `h1: foo` and `query: true` on "/a?x=1&y=2" give "/a#foo?x=1&y=2"; a missing listed header contributes "undefined" |
| CacheKey.Get | index.js:160 | a header lookup finds a value only under a pair with that name, and finds nothing exactly when no pair has that name |
| CacheKey.GetUnique | index.js:160 | when every header name occurs once, as the keys of a header object do, the lookup finds the value paired with the name |
| CacheKey.RequestKey | index.js:269-301 | the key extends the path; a '#' follows the path when headers are appended, otherwise a '?' when the query is appended; with neither, the key is the path |
| Selection.Scan | index.js:123-157 | the loop stops at the first route that claims the path; it passes through only if no route claims the path and the last route has a matcher; it falls out of the loop only if no route claims the path and the last route has none |
| Selection.Select | index.js:118-157 | an empty table passes through; otherwise the selected route is the first one that claims the path, and the two no-match outcomes depend on whether the last route has a matcher |
| Selection.ExactKeyWinsWithoutPatterns | index.js:123-139 | without pattern routes, a path equal to a route key selects that route wherever it is declared |
| Selection.EarlierPatternBeatsLaterExact | index.js:127-153 | a pattern route declared before an exact route for the same path takes the request |
| Dispatch.Resolve | index.js:118-157 | a passthrough selection bypasses with the state unchanged; a fall-through continues with the bare path and the state unchanged; a continued key starts with the path; a matched route bypasses only when its timeout is `false`; for a matched route, the request continues exactly when `setExpires` decides to, with the key from `setRequestKey` and the state `setExpires` leaves, and it fails exactly when `setExpires` throws |
| Dispatch.MatchedKey | index.js:131-132 | the request key starts with the path, and is the path itself when the route has no key arguments |
| Dispatch.Invalidations | index.js:165-172 | every delete is of the request key itself, and there is exactly one per route whose key occurs in the request key |
| Dispatch.Replay | index.js:186-200 | a hit sets the stored status and message, merges the stored headers over the existing ones, and replaces the body only with a truthy stored body |
| Dispatch.Capture | index.js:208-215 | the stored record holds the origin's status, message and header |
| Dispatch.CapturedBody | index.js:217-218 | the body is captured exactly when it is truthy, and then unchanged |
| Dispatch.NoCache | index.js:160 | no-cache holds only if the request carries a `cache-control: no-cache` header, never without a `cache-control` header, and always when that header is present and header names are unique, as in a header object |
| Dispatch.Continue | index.js:159-227 | no-cache passes through with no store call; a non-GET request invalidates, and its store calls are exactly one deletion of the request key per route whose key the request key contains; a GET is a hit exactly when the `:headers` entry exists; a miss checks the `:headers` entry and then writes only the captured record under `key:headers` and the captured body under `key:body` |
| Dispatch.Dispatch | index.js:115-233 | passthrough makes no store call; a non-GET request is never served from the store; only a miss writes, and it writes only the record and the body under the resolved key; every outcome except a hit or an error responds with the origin's response; whenever the request continues or bypasses, the resulting policy state is the one resolution produced; a continued non-GET request makes exactly the invalidation deletions |
| Dispatch.ResolveKeyStable | index.js:121-157 | the request key a request continues with does not depend on the policy state |
| Dispatch.MissThenHit | index.js:177-227 | after a miss is stored, the same GET request is a hit that replays the captured status, message and headers, and the body when it was truthy |
| Dispatch.DisabledRouteSkipsStore | index.js:134-150 | a matched route with timeout `false` makes no store call and changes no state |
| Dispatch.NoCacheStillCounts | index.js:134-162 | a no-cache request makes no store call, but its adaptive counter has already been raised |
| Dispatch.InvalidationKeepsCachedEntry | index.js:165-174 | invalidation removes only the bare request key; the `:headers` and `:body` entries are unchanged |
| Dispatch.ExactRouteInvalidates | index.js:127-172 | a non-GET request to an exactly matched route without key arguments issues at least one delete, adaptive routes included whenever the call counter exists |
| RedisDriver.RetryStrategy | lib/drivers/redis.js:24-35 | the strategy gives up, emitting 'fail', exactly at attempt 5; every other attempt is retried after 1000 ms; the lock is raised at attempt 1 and otherwise left as it was |
| RedisDriver.OnReady | lib/drivers/redis.js:38-41 | 'ready' lowers the lock |
| RedisDriver.FailuresFromFirst | lib/drivers/redis.js:24-35 | in a run of consecutive failures, attempts before the fifth are retried after 1000 ms, the fifth gives up and emits 'fail', nothing follows it, and the lock is raised from attempt 1 |
| RedisDriver.ReadyAfterFailures | lib/drivers/redis.js:27-41 | the lock is raised after failures and lowered by 'ready' |
| RedisDriver.HasFromReply | lib/drivers/redis.js:48-53 | `has` is true exactly when EXISTS reports a non-zero count |
| RedisDriver.HasDecidesHit | lib/drivers/redis.js:48-53 | for a cacheable GET, `has` on the `:headers` entry is true exactly when the dispatcher serves the request from the store |
| RedisDriver.ExpireSeconds | lib/drivers/redis.js:61-64 | a key with no TTL entry expires in 5 seconds; any entry is coerced with `Number`, giving its value/1000 seconds, so a digit-string route timeout gives the same as the number; the result is NaN exactly when `Number` gives NaN |
| RedisDriver.SetCommands | lib/drivers/redis.js:55-65 | `set` writes the value and then sets an expiry on the same key |
| RedisDriver.SuffixedKeyGetsDefault | lib/drivers/redis.js:62 | the TTL is looked up under the exact key written, so a TTL recorded for a request key does not reach its `:headers` entry, which gets 5 seconds |

## Left out

- Koa's generator plumbing (`yield next`), `this.set` and all `opts.debug` logging are not modelled.
- A downstream middleware that throws is not modelled: at index.js:206 the error would skip the capture and the write and end in `this.throw` at index.js:229-231. The model always gets an `origin` response. Calling the rest of the pipeline is represented by the `origin` response, and `this.throw` by the `Failed` outcome.
- The one-minute `setInterval` timer is not modelled. The reset is the explicit operation `Expiry.ResetCounters`, with no clock.
- General `RegExp` semantics are not modelled. Route text other than `:name` and the first `*` is taken literally: `.`, brackets and any later `*` are treated as plain characters. The exclusion of line terminators by `.*` is dropped, because a request line cannot carry CR or LF.
- `Number(…)` is modelled only for plain decimal digit strings and the empty string. Surrounding whitespace, signs, decimal points, exponents, hex and `Infinity` are not modelled, and numbers are integral. So the model gives results that differ from JavaScript for such strings:
  - the step value "0.5s" becomes NaN, where JavaScript gives 500;
  - the route value "1.5" (or " 7", "-1", "1e3") is dropped by `Routes.KeepsScalar`, where index.js:18 keeps it with that string as its timeout.
- JavaScript coercion corner cases that the value type cannot express are left out: `null` or array route values, a truthy non-object `cacheKeyArgs`, and a parsed query value that is an array (a repeated parameter).
- `JSON.stringify` and `JSON.parse` are abstracted as the `Dispatch.Entry.Json` constructor, an injective encoding of the header record. The text form is not modelled, nor is the Redis driver's second stringification of an already serialised value.
- The `for…in` walk over Koa's response object is abstracted as a record of the recognised fields. Koa's side effects of setting `status` while replaying are not modelled.
- `lib/store` and the in-memory driver are not part of this model, and neither are the semantics of their `setMultiple` and `delete`. `Dispatch.ApplyOps` takes the store as a plain map only to state the miss-then-hit and invalidation lemmas. Store errors (rejected promises) are not modelled.
- The Redis connection setup is not modelled. That includes the swapped host and port arguments (lib/drivers/redis.js:22), promises, EventEmitter mechanics and the plain `get` pass-through. The fire-and-forget nature of `store.delete` and `setMultiple` is not modelled either.
- `Object.keys` ordering is not modelled: route tables and step tables are given already in enumeration order.
- Object identity of route values is not modelled. An object route value is a `Routes.RawRoute.Object`, an independent record holding only `timeout` and `cacheKeyArgs`. The source stores the compiled `regex` on the route object itself (index.js:60, 69) and reads it back during selection (index.js:139, 142). Two consequences are not modelled:
  - When two keys share one object, both get the matcher compiled for the later key. For example, in `{'/a/:id': o, '/plain': o}`, `/plain` selects by the `/a/:id` pattern.
  - A `regex` field supplied by the user on a key without ':' or '*' is kept and honoured by selection. The model gives such a key no matcher (`Matcher.Compile`).
- Concurrency is out of scope: the code is single-threaded JavaScript.

=== FILE: cachekey.dfy ===
/** The cache key builder, `setRequestKey` (index.js:269-302): the request
    path, then optionally '#' and header values, then optionally '?' and query
    values. */
module CacheKey {
  import opened Wrappers
  import opened Routes

  /** The parts of a request the engine reads; `verb` is the HTTP method.
      Headers and parsed query parameters are name/value pairs in enumeration
      order. */
  datatype Request = Request(
    path: string,
    verb: string,
    header: seq<(string, string)>,
    query: seq<(string, string)>,
    querystring: string)

  /** `pairs[name]`: the value under the first pair with that name. */
  function Get(pairs: seq<(string, string)>, name: string): (r: Option<string>)
    ensures r.Some? ==> exists i :: 0 <= i < |pairs| && pairs[i] == (name, r.value)
    ensures r.None? <==> forall i :: 0 <= i < |pairs| ==> pairs[i].0 != name
  {
    if |pairs| == 0 then None
    else if pairs[0].0 == name then Some(pairs[0].1)
    else
      var r := Get(pairs[1..], name);
      assert r.Some? ==> exists i :: 0 <= i < |pairs| && pairs[i] == (name, r.value) by {
        if r.Some? {
          var j :| 0 <= j < |pairs[1..]| && pairs[1..][j] == (name, r.value);
          assert pairs[j + 1] == (name, r.value);
        }
      }
      assert r.None? ==> forall i :: 0 <= i < |pairs| ==> pairs[i].0 != name by {
        if r.None? {
          forall i | 0 < i < |pairs| ensures pairs[i].0 != name {
            assert pairs[i] == pairs[1..][i - 1];
          }
        }
      }
      r
  }

  /** Names that occur at most once, as the keys of a header object do. */
  predicate UniqueNames(pairs: seq<(string, string)>) {
    forall i, j :: 0 <= i < j < |pairs| ==> pairs[i].0 != pairs[j].0
  }

  /** When every name occurs once, `pairs[name]` is the value paired with it:
      the pair `Get` finds and the given one share a name, so they are the
      same pair. */
  lemma GetUnique(pairs: seq<(string, string)>, name: string, v: string)
    ensures (name, v) in pairs && UniqueNames(pairs) ==> Get(pairs, name) == Some(v)
  {
  }

  /** `requestKey += ctx.header[name]`: a missing header is appended as the
      text "undefined". */
  function HeaderText(header: seq<(string, string)>, name: string): string {
    Get(header, name).GetOr("undefined")
  }

  /** The values of the named headers, in the order the names are listed,
      with no separator. */
  function NamedValues(header: seq<(string, string)>, names: seq<string>): string {
    if |names| == 0 then ""
    else NamedValues(header, names[..|names| - 1]) + HeaderText(header, names[|names| - 1])
  }

  /** Every value of `pairs`, in enumeration order, with no separator. */
  function AllValues(pairs: seq<(string, string)>): string {
    if |pairs| == 0 then ""
    else AllValues(pairs[..|pairs| - 1]) + pairs[|pairs| - 1].1
  }

  /** What the `headers` argument appends (index.js:270-286). */
  function HeaderPart(a: Arg, req: Request): string {
    match a
    case ArgList(names) => "#" + NamedValues(req.header, names)
    case ArgFlag(true) => "#" + AllValues(req.header)
    case _ => ""
  }

  /** What the `query` argument appends (index.js:288-299). A list appends
      every query value, whichever names it lists. */
  function QueryPart(a: Arg, req: Request): string {
    match a
    case ArgList(_) => "?" + AllValues(req.query)
    case ArgFlag(true) => "?" + req.querystring
    case _ => ""
  }

  /** Whether an argument appends anything: a list, or `true`. */
  predicate Appends(a: Arg) {
    a.ArgList? || a == ArgFlag(true)
  }

  /** The key for a request matched by a route with key arguments: it extends
      the path, a '#' follows the path when headers are appended, and the
      path alone is the key when neither argument appends. The `custom` text
      is never used (`QueryNamesIgnored`). */
  function RequestKey(path: string, args: KeyArgs, req: Request): (k: string)
    ensures |k| >= |path| && k[..|path|] == path
    ensures Appends(args.headers) ==> |k| > |path| && k[|path|] == '#'
    ensures !Appends(args.headers) && Appends(args.query) ==> |k| > |path| && k[|path|] == '?'
    ensures !Appends(args.headers) && !Appends(args.query) ==> k == path
  {
    path + HeaderPart(args.headers, req) + QueryPart(args.query, req)
  }

  /** The loop over the listed header names (index.js:274-276). */
  method AppendNamed(key: string, header: seq<(string, string)>, names: seq<string>) returns (r: string)
    ensures r == key + NamedValues(header, names)
  {
    r := key;
    var i := 0;
    while i < |names|
      invariant 0 <= i <= |names|
      invariant r == key + NamedValues(header, names[..i])
    {
      assert names[..i + 1][..i] == names[..i];
      r := r + HeaderText(header, names[i]);
      i := i + 1;
    }
    assert names[..|names|] == names;
  }

  /** The loops over every header or every query value (index.js:283-285,
      292-294). */
  method AppendAll(key: string, pairs: seq<(string, string)>) returns (r: string)
    ensures r == key + AllValues(pairs)
  {
    r := key;
    var i := 0;
    while i < |pairs|
      invariant 0 <= i <= |pairs|
      invariant r == key + AllValues(pairs[..i])
    {
      assert pairs[..i + 1][..i] == pairs[..i];
      r := r + pairs[i].1;
      i := i + 1;
    }
    assert pairs[..|pairs|] == pairs;
  }

  /** `setRequestKey` as the source writes it, appending value by value: the
      header part, then the query part. */
  method SetRequestKey(requestKey: string, args: KeyArgs, ctx: Request) returns (key: string)
    ensures key == RequestKey(requestKey, args, ctx)
  {
    var headerPart := "";
    match args.headers {
      case ArgList(names) =>
        headerPart := AppendNamed("#", ctx.header, names);
      case ArgFlag(true) =>
        headerPart := AppendAll("#", ctx.header);
      case _ =>
    }
    var queryPart := "";
    match args.query {
      case ArgList(_) =>
        queryPart := AppendAll("?", ctx.query);
      case ArgFlag(true) =>
        queryPart := "?" + ctx.querystring;
      case _ =>
    }
    assert headerPart == HeaderPart(args.headers, ctx);
    assert queryPart == QueryPart(args.query, ctx);
    key := requestKey + headerPart + queryPart;
  }

  /** The key depends on nothing but the path, the values of the listed
      headers and the query values: two requests that agree on those get the
      same key, whatever else differs. */
  lemma {:induction false} KeyDependsOnListedValues(path: string, names: seq<string>, q: Arg, r1: Request, r2: Request)
    requires forall n :: n in names ==> HeaderText(r1.header, n) == HeaderText(r2.header, n)
    requires AllValues(r1.query) == AllValues(r2.query) && r1.querystring == r2.querystring
    ensures RequestKey(path, KeyArgs(ArgList(names), q, None), r1) == RequestKey(path, KeyArgs(ArgList(names), q, None), r2)
  {
    NamedValuesAgree(r1.header, r2.header, names);
  }

  lemma {:induction false} NamedValuesAgree(h1: seq<(string, string)>, h2: seq<(string, string)>, names: seq<string>)
    requires forall n :: n in names ==> HeaderText(h1, n) == HeaderText(h2, n)
    ensures NamedValues(h1, names) == NamedValues(h2, names)
  {
    if |names| > 0 {
      var init := names[..|names| - 1];
      assert forall n :: n in init ==> n in names;
      NamedValuesAgree(h1, h2, init);
      assert names[|names| - 1] in names;
    }
  }

  /** The names of a query list are never consulted, and a `custom` argument
      adds nothing. */
  lemma QueryNamesIgnored(path: string, h: Arg, n1: seq<string>, n2: seq<string>, c: Option<string>, req: Request)
    ensures RequestKey(path, KeyArgs(h, ArgList(n1), c), req) == RequestKey(path, KeyArgs(h, ArgList(n2), None), req)
  {
  }

  /** Header values are joined without a separator, so different header
      values can give one key. */
  lemma HeaderValuesCanCollide()
    ensures var args := KeyArgs(ArgList(["a", "b"]), ArgAbsent, None);
            var r1 := Request("/p", "GET", [("a", "x"), ("b", "yz")], [], "");
            var r2 := Request("/p", "GET", [("a", "xy"), ("b", "z")], [], "");
            r1 != r2 && RequestKey("/p", args, r1) == RequestKey("/p", args, r2) == "/p#xyz"
  {
    var r1 := Request("/p", "GET", [("a", "x"), ("b", "yz")], [], "");
    var r2 := Request("/p", "GET", [("a", "xy"), ("b", "z")], [], "");
    assert NamedValues(r1.header, ["a", "b"]) == "xyz" by {
      assert ["a", "b"][..1] == ["a"];
      assert ["a"][..0] == [];
    }
    assert NamedValues(r2.header, ["a", "b"]) == "xyz" by {
      assert ["a", "b"][..1] == ["a"];
      assert ["a"][..0] == [];
    }
  }

  /** Header part first, then query part: a listed header `h1` of "foo" and
      `query: true` on "/a?x=1&y=2" give "/a#foo?x=1&y=2"; a listed header the
      request lacks contributes "undefined". */
  lemma KeyLayoutExamples()
    ensures var req := Request("/a", "GET", [("h1", "foo")], [("x", "1"), ("y", "2")], "x=1&y=2");
            && RequestKey("/a", KeyArgs(ArgList(["h1"]), ArgFlag(true), None), req) == "/a#foo?x=1&y=2"
            && RequestKey("/a", KeyArgs(ArgList(["h2"]), ArgList(["zzz"]), None), req) == "/a#undefined?12"
  {
    var req := Request("/a", "GET", [("h1", "foo")], [("x", "1"), ("y", "2")], "x=1&y=2");
    assert ["h1"][..0] == [];
    assert ["h2"][..0] == [];
    assert req.query[..1] == [("x", "1")];
    assert req.query[..1][..0] == [];
    assert AllValues(req.query) == "12";
  }
}

=== FILE: dispatch.dfy ===
/** The per-request decision of the middleware (index.js:115-233): route
    selection, key building and `setExpires`, then no-cache passthrough,
    invalidation on non-GET methods, a cache hit replayed from the store, or a
    miss whose response is captured and stored. Store calls are recorded as a
    list of operations instead of being performed. */
module Dispatch {
  import opened Wrappers
  import opened Js
  import opened Text
  import opened Routes
  import opened Setup
  import opened Expiry
  import opened CacheKey
  import opened Selection

  /** The recognised response fields: status, message, the header map and the
      body (a text payload, or none). */
  datatype Response = Response(status: int, message: string, header: map<string, string>, body: Option<string>)

  /** The record stored under `key:headers`: the recognised response fields
      other than the body (index.js:208-215). */
  datatype HeaderRecord = HeaderRecord(status: int, message: string, header: map<string, string>)

  /** A store value: a serialised header record, or a body payload. */
  datatype Entry = Json(record: HeaderRecord) | Payload(body: Option<string>)

  /** A call the middleware makes on the store. */
  datatype StoreOp =
    | Has(key: string)
    | Get(key: string)
    | Delete(key: string)
    | SetMultiple(base: string, writes: seq<(string, Entry)>)

  /** Which way the request went. `Failed` is `this.throw(error)`. */
  datatype Kind = Passed | Failed | Invalidated | Hit | Miss

  /** The way the request went, the store calls in order, the response the
      host sees, and the policy state afterwards. */
  datatype Outcome = Outcome(kind: Kind, ops: seq<StoreOp>, response: Response, state: State)

  /** The result of matching, key building and `setExpires`: pass through,
      fail with the error `setExpires` raised, or go on with a request key. */
  datatype Resolution = Bypass(state: State) | Fault | Proceed(key: string, state: State)

  /** The store key of the header record and of the body. */
  function HeadersKey(key: string): string { key + ":headers" }
  function BodyKey(key: string): string { key + ":body" }

  /** JavaScript truthiness of a body: present and not empty. */
  predicate Truthy(body: Option<string>) {
    body.Some? && body.value != ""
  }

  /** Lines 118-157: selection, then key and TTL for a matched route. A run
      out of routes goes on with the bare path and records no TTL. */
  function Resolve(cfg: Config, st: State, req: Request): (r: Resolution)
    ensures Select(cfg.routes, req.path).Passthrough? ==> r == Bypass(st)
    ensures Select(cfg.routes, req.path).FellThrough? ==> r == Proceed(req.path, st)
    ensures r.Proceed? ==> |r.key| >= |req.path| && r.key[..|req.path|] == req.path
    ensures r.Bypass? && Select(cfg.routes, req.path).Matched? ==>
              cfg.routes[Select(cfg.routes, req.path).index].timeout == Bool(false) && r.state == st
    ensures Select(cfg.routes, req.path).Matched? ==>
              var i := Select(cfg.routes, req.path).index;
              var key := MatchedKey(cfg.routes[i], req);
              && (r.Fault? <==> SetExpires(cfg, i, key, st).Threw?)
              && (r.Proceed? ==> r.key == key && SetExpires(cfg, i, key, st) == Decided(true, r.state))
              && (r.Bypass? ==> SetExpires(cfg, i, key, st) == Decided(false, r.state))
  {
    match Select(cfg.routes, req.path)
    case Passthrough => Bypass(st)
    case FellThrough => Proceed(req.path, st)
    case Matched(i) =>
      var key := MatchedKey(cfg.routes[i], req);
      match SetExpires(cfg, i, key, st)
      case Threw => Fault
      case Decided(ok, s) => if ok then Proceed(key, s) else Bypass(s)
  }

  /** The request key for a matched route: extended by `setRequestKey` when
      the route has key arguments, the bare path otherwise. */
  function MatchedKey(route: Route, req: Request): (key: string)
    ensures |key| >= |req.path| && key[..|req.path|] == req.path
    ensures route.args.None? ==> key == req.path
  {
    if route.args.Some? then
      var key := RequestKey(req.path, route.args.value, req);
      assert key[..|req.path|] == req.path;
      key
    else req.path
  }

  /** The indices of the routes whose key occurs in the request key. */
  function Containing(routes: seq<Route>, key: string): set<nat> {
    set j: nat | j < |routes| && Contains(key, routes[j].key)
  }

  /** Lines 166-172: one `delete(requestKey)` per route key that occurs in
      the request key. */
  function Invalidations(routes: seq<Route>, key: string): (ops: seq<StoreOp>)
    ensures forall i :: 0 <= i < |ops| ==> ops[i] == Delete(key)
    ensures |ops| == |Containing(routes, key)|
  {
    if |routes| == 0 then
      assert Containing(routes, key) == {};
      []
    else
      ContainingSplit(routes, key);
      if Contains(key, routes[0].key) then [Delete(key)] + Invalidations(routes[1..], key)
      else Invalidations(routes[1..], key)
  }

  /** The first route adds one index exactly when its key occurs. */
  lemma ContainingSplit(routes: seq<Route>, key: string)
    requires |routes| > 0
    ensures |Containing(routes, key)| == |Containing(routes[1..], key)| + (if Contains(key, routes[0].key) then 1 else 0)
  {
    var tail := Containing(routes[1..], key);
    var shifted := Shift(tail);
    ShiftedSize(tail);
    var all := Containing(routes, key);
    forall j | j in all - {0} ensures j in shifted {
      assert routes[j] == routes[1..][j - 1];
      assert j - 1 in tail;
    }
    forall j | j in shifted ensures j in all - {0} {
      assert routes[j] == routes[1..][j - 1];
    }
    assert all - {0} == shifted;
    if Contains(key, routes[0].key) {
      assert all == {0} + shifted;
    } else {
      assert all == shifted;
    }
  }

  /** Shifting every index by one keeps the number of indices. */
  function Shift(s: set<nat>): set<nat> {
    set j | j in s :: j + 1
  }

  lemma {:induction false} ShiftedSize(s: set<nat>)
    ensures |Shift(s)| == |s|
    decreases |s|
  {
    if s != {} {
      var x :| x in s;
      var rest := s - {x};
      ShiftedSize(rest);
      var big := Shift(s);
      var small := Shift(rest);
      forall y | y in big ensures y in small + {x + 1} {
        var j :| j in s && y == j + 1;
        if j != x { assert j in rest; }
      }
      forall y | y in small + {x + 1} ensures y in big {
        if y != x + 1 { var j :| j in rest && y == j + 1; assert j in s; }
      }
      assert big == small + {x + 1};
      assert x + 1 !in small;
      assert |big| == |small| + 1;
      assert s == rest + {x} && |s| == |rest| + 1;
    } else {
      assert Shift(s) == {};
    }
  }

  /** The record captured from the origin's response (index.js:208-215):
      status, message and header, and nothing of the body. */
  function Capture(origin: Response): (r: HeaderRecord)
    ensures r.status == origin.status && r.message == origin.message && r.header == origin.header
  {
    HeaderRecord(origin.status, origin.message, origin.header)
  }

  /** The body captured from the origin's response: only a truthy one
      (index.js:217-218). */
  function CapturedBody(origin: Response): (r: Option<string>)
    ensures r.None? <==> !Truthy(origin.body)
    ensures r.Some? ==> r == origin.body && r.value != ""
  {
    if Truthy(origin.body) then origin.body else None
  }

  /** Lines 186-200: the stored record's fields are set on the response, the
      `header` record one header at a time, and a truthy stored body replaces
      the body. */
  function Replay(headers: Option<Entry>, body: Option<Entry>, resp: Response): (r: Response)
    ensures headers.Some? && headers.value.Json? ==>
              && r.status == headers.value.record.status
              && r.message == headers.value.record.message
              && r.header == resp.header + headers.value.record.header
    ensures !(headers.Some? && headers.value.Json?) ==>
              r.status == resp.status && r.message == resp.message && r.header == resp.header
    ensures r.body == (if body.Some? && body.value.Payload? && Truthy(body.value.body) then body.value.body else resp.body)
  {
    var withHeaders :=
      match headers
      case Some(Json(rec)) => Response(rec.status, rec.message, resp.header + rec.header, resp.body)
      case _ => resp;
    match body
    case Some(Payload(b)) => if Truthy(b) then withHeaders.(body := b) else withHeaders
    case _ => withHeaders
  }

  /** The calls of a miss: one existence check of the header entry, then one
      multiple set that writes the captured record under `key:headers` and
      the captured body under `key:body`, and nothing else. */
  predicate IsMissWrite(ops: seq<StoreOp>, key: string, origin: Response) {
    && |ops| == 2
    && ops[0] == Has(HeadersKey(key))
    && ops[1].SetMultiple? && ops[1].base == key
    && ops[1].writes == [(HeadersKey(key), Json(Capture(origin))), (BodyKey(key), Payload(CapturedBody(origin)))]
  }

  /** The store's entry under `k`, if any. */
  function Lookup(store: map<string, Entry>, k: string): Option<Entry> {
    if k in store then Some(store[k]) else None
  }

  /** `request.header['cache-control'] === 'no-cache'` */
  predicate NoCache(req: Request): (b: bool)
    ensures b ==> exists i :: 0 <= i < |req.header| && req.header[i] == ("cache-control", "no-cache")
    ensures (forall i :: 0 <= i < |req.header| ==> req.header[i].0 != "cache-control") ==> !b
    ensures ("cache-control", "no-cache") in req.header && CacheKey.UniqueNames(req.header) ==> b
  {
    CacheKey.GetUnique(req.header, "cache-control", "no-cache");
    CacheKey.Get(req.header, "cache-control") == Some("no-cache")
  }

  /** Lines 159-227, once a request key is known. */
  function Continue(cfg: Config, key: string, st: State, req: Request, store: map<string, Entry>,
                    resp: Response, origin: Response): (o: Outcome)
    ensures o.state == st
    ensures NoCache(req) ==> o.kind == Passed && o.ops == []
    ensures !NoCache(req) && req.verb != "GET" ==> o.kind == Invalidated && o.ops == Invalidations(cfg.routes, key)
    ensures o.kind == Hit <==> !NoCache(req) && req.verb == "GET" && HeadersKey(key) in store
    ensures o.kind == Miss ==> IsMissWrite(o.ops, key, origin)
  {
    if NoCache(req) then Outcome(Passed, [], origin, st)
    else if req.verb != "GET" then Outcome(Invalidated, Invalidations(cfg.routes, key), origin, st)
    else if HeadersKey(key) in store then
      Outcome(Hit, [Has(HeadersKey(key)), Get(HeadersKey(key)), Get(BodyKey(key))],
              Replay(Lookup(store, HeadersKey(key)), Lookup(store, BodyKey(key)), resp), st)
    else
      Outcome(Miss, [Has(HeadersKey(key)),
                     SetMultiple(key, [(HeadersKey(key), Json(Capture(origin))),
                                       (BodyKey(key), Payload(CapturedBody(origin)))])],
              origin, st)
  }

  /** One request. `resp` is the response before the rest of the pipeline
      runs and `origin` the response it produces when called. */
  function Dispatch(cfg: Config, st: State, req: Request, store: map<string, Entry>,
                    resp: Response, origin: Response): (o: Outcome)
    ensures o.kind == Passed ==> o.ops == []
    ensures o.kind == Failed ==> o.ops == [] && o.state == st
    ensures o.kind == Invalidated ==> req.verb != "GET" && forall i :: 0 <= i < |o.ops| ==> o.ops[i].Delete?
    ensures o.kind == Hit || o.kind == Miss ==> req.verb == "GET" && !NoCache(req)
    ensures o.kind == Hit ==> forall i :: 0 <= i < |o.ops| ==> o.ops[i].Has? || o.ops[i].Get?
    ensures o.kind != Hit && o.kind != Failed ==> o.response == origin
    ensures o.kind == Hit ==> o.response.body == resp.body || Truthy(o.response.body)
    ensures (exists i :: 0 <= i < |o.ops| && o.ops[i].SetMultiple?) ==> o.kind == Miss
    ensures |cfg.routes| == 0 ==> o.kind == Passed && o.state == st
    ensures o.kind == Miss ==> Resolve(cfg, st, req).Proceed? && IsMissWrite(o.ops, Resolve(cfg, st, req).key, origin)
    ensures Resolve(cfg, st, req).Proceed? || Resolve(cfg, st, req).Bypass? ==> o.state == Resolve(cfg, st, req).state
    ensures Resolve(cfg, st, req).Proceed? && !NoCache(req) && req.verb != "GET" ==>
              o.kind == Invalidated && o.ops == Invalidations(cfg.routes, Resolve(cfg, st, req).key)
  {
    match Resolve(cfg, st, req)
    case Bypass(s) => Outcome(Passed, [], origin, s)
    case Fault => Outcome(Failed, [], resp, st)
    case Proceed(key, s) => Continue(cfg, key, s, req, store, resp, origin)
  }

  /** The store's own behaviour, which lives outside this model, taken as a
      plain key-value map: reads change nothing, a delete removes its key, a
      multiple set writes every pair in order. */
  function ApplyOps(store: map<string, Entry>, ops: seq<StoreOp>): map<string, Entry>
    decreases |ops|
  {
    if |ops| == 0 then store
    else
      var next :=
        match ops[0]
        case Has(_) => store
        case Get(_) => store
        case Delete(k) => store - {k}
        case SetMultiple(_, writes) => WriteAll(store, writes);
      ApplyOps(next, ops[1..])
  }

  function WriteAll(store: map<string, Entry>, writes: seq<(string, Entry)>): map<string, Entry>
    decreases |writes|
  {
    if |writes| == 0 then store else WriteAll(store[writes[0].0 := writes[0].1], writes[1..])
  }

  /** Matching, key and TTL decision do not depend on the policy state except
      through the TTL bookkeeping: a request that went on with a key goes on
      with the same key from any other state. */
  lemma ResolveKeyStable(cfg: Config, st: State, st2: State, req: Request)
    requires Resolve(cfg, st, req).Proceed?
    ensures Resolve(cfg, st2, req).Proceed? && Resolve(cfg, st2, req).key == Resolve(cfg, st, req).key
  {
  }

  /** Storing a miss and asking again: the second identical GET request is a
      hit, the origin is not called, and the replayed response has the
      captured status, message and headers, and the captured body when it
      was truthy. */
  lemma MissThenHit(cfg: Config, st: State, req: Request, store: map<string, Entry>,
                    resp: Response, origin: Response, resp2: Response, origin2: Response)
    requires Dispatch(cfg, st, req, store, resp, origin).kind == Miss
    ensures var o1 := Dispatch(cfg, st, req, store, resp, origin);
            var o2 := Dispatch(cfg, o1.state, req, ApplyOps(store, o1.ops), resp2, origin2);
            && o2.kind == Hit
            && o2.response.status == origin.status
            && o2.response.message == origin.message
            && (forall h :: h in origin.header ==> h in o2.response.header && o2.response.header[h] == origin.header[h])
            && (Truthy(origin.body) ==> o2.response.body == origin.body)
  {
    var o1 := Dispatch(cfg, st, req, store, resp, origin);
    var key := Resolve(cfg, st, req).key;
    ResolveKeyStable(cfg, st, o1.state, req);
    var hk, bk := HeadersKey(key), BodyKey(key);
    assert hk != bk by {
      assert hk[|key| + 1] == 'h' && bk[|key| + 1] == 'b';
    }
    var writes := [(hk, Json(Capture(origin))), (bk, Payload(CapturedBody(origin)))];
    assert o1.ops == [Has(hk), SetMultiple(key, writes)];
    var store2 := ApplyOps(store, o1.ops);
    StoreOfMiss(store, key, hk, writes);
    assert Lookup(store2, hk) == Some(Json(Capture(origin)));
    assert Lookup(store2, bk) == Some(Payload(CapturedBody(origin)));
  }

  /** Applying the calls of a miss writes the header record, then the body. */
  lemma StoreOfMiss(store: map<string, Entry>, key: string, hk: string, writes: seq<(string, Entry)>)
    requires |writes| == 2
    ensures ApplyOps(store, [Has(hk), SetMultiple(key, writes)])
            == store[writes[0].0 := writes[0].1][writes[1].0 := writes[1].1]
  {
    var ops := [Has(hk), SetMultiple(key, writes)];
    var m1 := store[writes[0].0 := writes[0].1];
    var m2 := m1[writes[1].0 := writes[1].1];
    assert WriteAll(m1, writes[1..]) == m2 by {
      assert writes[1..][1..] == [];
    }
    assert WriteAll(store, writes) == m2;
    assert ops[1..][1..] == [];
    assert ApplyOps(store, ops[1..]) == m2;
  }

  /** A matched route whose timeout is `false` sends every request straight
      on: no store call and no state change. */
  lemma DisabledRouteSkipsStore(cfg: Config, st: State, req: Request, store: map<string, Entry>, resp: Response, origin: Response)
    requires Select(cfg.routes, req.path).Matched?
    requires cfg.routes[Select(cfg.routes, req.path).index].timeout == Bool(false)
    ensures var o := Dispatch(cfg, st, req, store, resp, origin);
            o.kind == Passed && o.ops == [] && o.state == st && o.response == origin
  {
  }

  /** A `no-cache` request never reaches the store, but an adaptive route's
      counter has already been bumped by then. */
  lemma NoCacheStillCounts(cfg: Config, st: State, req: Request, store: map<string, Entry>, resp: Response, origin: Response)
    requires NoCache(req)
    requires Select(cfg.routes, req.path).Matched?
    requires var i := Select(cfg.routes, req.path).index;
             Adaptive(cfg, cfg.routes[i].timeout) && cfg.counting
    ensures var o := Dispatch(cfg, st, req, store, resp, origin);
            var key := MatchedKey(cfg.routes[Select(cfg.routes, req.path).index], req);
            && o.kind == Passed && o.ops == []
            && key in o.state.callCnt
            && o.state.callCnt[key] == (if key in st.callCnt then st.callCnt[key] + 1 else 1)
  {
  }

  /** Invalidation deletes the bare request key, never the `:headers` or
      `:body` entries a miss stored: after a non-GET request the cached
      response is still there. */
  lemma InvalidationKeepsCachedEntry(cfg: Config, st: State, req: Request, store: map<string, Entry>, resp: Response, origin: Response)
    requires Dispatch(cfg, st, req, store, resp, origin).kind == Invalidated
    ensures var o := Dispatch(cfg, st, req, store, resp, origin);
            var key := Resolve(cfg, st, req).key;
            && ApplyOps(store, o.ops) == (if |o.ops| > 0 then store - {key} else store)
            && Lookup(ApplyOps(store, o.ops), HeadersKey(key)) == Lookup(store, HeadersKey(key))
            && Lookup(ApplyOps(store, o.ops), BodyKey(key)) == Lookup(store, BodyKey(key))
  {
    var o := Dispatch(cfg, st, req, store, resp, origin);
    var key := Resolve(cfg, st, req).key;
    DeletesOfOneKey(store, o.ops, key);
    assert HeadersKey(key) != key && BodyKey(key) != key;
  }

  lemma {:induction false} DeletesOfOneKey(store: map<string, Entry>, ops: seq<StoreOp>, key: string)
    requires forall i :: 0 <= i < |ops| ==> ops[i] == Delete(key)
    ensures ApplyOps(store, ops) == (if |ops| > 0 then store - {key} else store)
  {
    if |ops| > 0 {
      DeletesOfOneKey(store - {key}, ops[1..], key);
      assert store - {key} - {key} == store - {key};
    }
  }

  /** A non-GET request to a route matched by its exact key (no key
      arguments) issues at least one delete, since the route key occurs in the
      request key. Adaptive routes are included whenever the call counter
      exists; without it `setExpires` throws first. */
  lemma ExactRouteInvalidates(cfg: Config, st: State, req: Request, store: map<string, Entry>, resp: Response, origin: Response)
    requires req.verb != "GET" && !NoCache(req)
    requires Select(cfg.routes, req.path).Matched?
    requires var r := cfg.routes[Select(cfg.routes, req.path).index];
             r.key == req.path && r.args.None? && r.timeout != Bool(false) && !(Adaptive(cfg, r.timeout) && !cfg.counting)
    ensures var o := Dispatch(cfg, st, req, store, resp, origin);
            o.kind == Invalidated && |o.ops| > 0
  {
    var i := Select(cfg.routes, req.path).index;
    assert OccursAt(req.path, cfg.routes[i].key, 0);
    assert Contains(req.path, cfg.routes[i].key);
    assert i in Containing(cfg.routes, req.path);
  }
}

=== FILE: duration.dfy ===
/** The adaptive step table (`opts.increasing`) and the load-time rewrite of
    duration strings such as "30s" or "2h" into milliseconds
    (index.js:77-106). */
module Duration {
  import opened Wrappers
  import opened Js
  import opened Text
  import opened Seqs

  /** One entry of the step table: an object key (so text, e.g. "10") and the
      TTL value stored under it. */
  datatype Step = Step(key: string, value: Value)

  function StepKey(s: Step): string { s.key }

  /** `Object.keys(t)`, in enumeration order. */
  function Keys(t: seq<Step>): (ks: seq<string>)
    ensures |ks| == |t|
    ensures forall i :: 0 <= i < |t| ==> ks[i] == t[i].key
  {
    Map(StepKey, t)
  }

  /** Object keys are unique. */
  predicate DistinctKeys(t: seq<Step>) {
    forall i, j :: 0 <= i < j < |t| ==> t[i].key != t[j].key
  }

  /** `t[k]`: the value under key `k`, `undefined` when there is none. */
  function Lookup(t: seq<Step>, k: string): Value {
    if |t| == 0 then Undefined
    else if t[0].key == k then t[0].value
    else Lookup(t[1..], k)
  }

  /** The table installed when an adaptive route exists and no table was
      configured (index.js:79-87). */
  const DefaultSteps: seq<Step> :=
    [Step("1", Num(1000)), Step("3", Num(2000)), Step("10", Num(3000)),
     Step("20", Num(4000)), Step("50", Num(5000))]

  /** The units a duration string may end in. */
  predicate IsUnit(u: char) { u == 's' || u == 'm' || u == 'h' || u == 'd' }

  /** Milliseconds per unit. */
  function UnitFactor(u: char): int
    requires IsUnit(u)
  {
    match u
    case 's' => 1000
    case 'm' => 60000
    case 'h' => 60000 * 60
    case 'd' => 60000 * 60 * 24
  }

  /** `s.search(/[0-9]+u$/) !== -1`: `s` ends in the unit `u` right after a digit. */
  predicate EndsWithUnit(s: string, u: char) {
    |s| >= 2 && s[|s| - 1] == u && IsDigit(s[|s| - 2])
  }

  /** `Number(text) * factor`; NaN stays NaN. */
  function Scale(text: string, factor: int): Value {
    match ToNumber(Str(text))
    case Some(n) => Num(n * factor)
    case None => NaN
  }

  /** The rewrite of one string entry: the new value, or `None` when the entry
      is deleted from the table. The units are tried in the order s, m, h, d,
      and only the first occurrence of the unit letter is removed before
      `Number(…)` reads the rest. */
  function ParseDuration(s: string): (r: Option<Value>)
    ensures r.None? <==> !(|s| >= 2 && IsDigit(s[|s| - 2]) && IsUnit(s[|s| - 1]))
    ensures r.Some? ==> r.value.Num? || r.value.NaN?
  {
    if EndsWithUnit(s, 's') then Some(Scale(RemoveFirst(s, 's'), 1000))
    else if EndsWithUnit(s, 'm') then Some(Scale(RemoveFirst(s, 'm'), 60000))
    else if EndsWithUnit(s, 'h') then Some(Scale(RemoveFirst(s, 'h'), 60000 * 60))
    else if EndsWithUnit(s, 'd') then Some(Scale(RemoveFirst(s, 'd'), 60000 * 60 * 24))
    else None
  }

  /** A well-formed duration, digits followed by one unit, becomes that many
      units in milliseconds. */
  lemma ParseWellFormed(digits: string, u: char)
    requires |digits| > 0 && AllDigits(digits) && IsUnit(u)
    ensures ParseDuration(digits + [u]) == Some(Num(DecimalValue(digits) * UnitFactor(u)))
  {
    var s := digits + [u];
    RemoveTrailingUnit(digits, u);
    assert s[|s| - 2] == digits[|digits| - 1];
    assert ToNumber(Str(digits)) == Some(DecimalValue(digits));
  }

  /** Removing the first unit letter from digits-then-unit leaves the digits. */
  lemma {:induction false} RemoveTrailingUnit(digits: string, u: char)
    requires AllDigits(digits) && IsUnit(u)
    ensures RemoveFirst(digits + [u], u) == digits
  {
    if |digits| > 0 {
      assert (digits + [u])[1..] == digits[1..] + [u];
      RemoveTrailingUnit(digits[1..], u);
    }
  }

  /** A unit letter behind something that is not a plain number still passes
      the suffix test, and the entry becomes NaN rather than being deleted. */
  lemma ParseKeepsNaN()
    ensures ParseDuration("x5s") == Some(NaN)
    ensures ParseDuration("5ms") == None
  {
    assert RemoveFirst("x5s", 's') == "x5";
  }

  /** The rewrite of the whole table (index.js:91-106): each string entry is
      replaced by its duration in milliseconds or deleted; every other entry is
      kept as it is, in place. */
  function NormaliseSteps(t: seq<Step>): (r: seq<Step>)
    ensures |r| <= |t|
    ensures forall i :: 0 <= i < |r| ==> !r[i].value.Str?
    ensures forall i :: 0 <= i < |r| ==> r[i].key in Keys(t)
    ensures forall i :: 0 <= i < |t| && !t[i].value.Str? ==> t[i] in r
  {
    if |t| == 0 then []
    else
      var rest := NormaliseSteps(t[1..]);
      assert forall i :: 0 <= i < |rest| ==> rest[i].key in Keys(t) by {
        forall i | 0 <= i < |rest|
          ensures rest[i].key in Keys(t)
        {
          var j :| 0 <= j < |t[1..]| && Keys(t[1..])[j] == rest[i].key;
          assert Keys(t)[j + 1] == rest[i].key;
        }
      }
      assert Keys(t)[0] == t[0].key;
      match t[0].value
      case Str(s) =>
        (match ParseDuration(s)
         case Some(v) => [Step(t[0].key, v)] + rest
         case None => rest)
      case _ => [t[0]] + rest
  }

  /** What normalisation does to the value under one key: a string becomes its
      duration or disappears (reads as `undefined`), anything else is
      unchanged. */
  function NormalisedValue(v: Value): Value {
    match v
    case Str(s) => ParseDuration(s).GetOr(Undefined)
    case _ => v
  }

  /** Normalisation acts key by key. */
  lemma {:induction false} NormaliseLookup(t: seq<Step>, k: string)
    requires DistinctKeys(t)
    ensures Lookup(NormaliseSteps(t), k) == NormalisedValue(Lookup(t, k))
  {
    if |t| == 0 {
    } else {
      var rest := NormaliseSteps(t[1..]);
      assert DistinctKeys(t[1..]);
      NormaliseLookup(t[1..], k);
      if t[0].key == k {
        assert Lookup(t[1..], k) == Undefined by {
          LookupAbsent(t[1..], k);
        }
        LookupAbsent(rest, k);
      }
    }
  }

  /** Normalisation acts key by key, for every key at once. */
  lemma NormaliseLookupAll(t: seq<Step>)
    ensures DistinctKeys(t) ==> forall k :: Lookup(NormaliseSteps(t), k) == NormalisedValue(Lookup(t, k))
  {
    forall k | DistinctKeys(t) ensures Lookup(NormaliseSteps(t), k) == NormalisedValue(Lookup(t, k)) {
      NormaliseLookup(t, k);
    }
  }

  /** A key that is not in a table reads as `undefined`; one that is reads as
      its entry. */
  lemma {:induction false} LookupAbsent(t: seq<Step>, k: string)
    requires forall i :: 0 <= i < |t| ==> t[i].key != k
    ensures Lookup(t, k) == Undefined
  {
    if |t| > 0 {
      LookupAbsent(t[1..], k);
    }
  }

  /** A table without strings is left as it is; in particular the default one. */
  lemma {:induction false} NormaliseWithoutStrings(t: seq<Step>)
    requires forall i :: 0 <= i < |t| ==> !t[i].value.Str?
    ensures NormaliseSteps(t) == t
  {
    if |t| > 0 {
      NormaliseWithoutStrings(t[1..]);
    }
  }

  /** The key list of the default table. */
  lemma DefaultKeys()
    ensures Keys(DefaultSteps) == ["1", "3", "10", "20", "50"]
  {
    var ks := Keys(DefaultSteps);
    assert ks[0] == "1" && ks[1] == "3" && ks[2] == "10" && ks[3] == "20" && ks[4] == "50";
  }

  /** The default table is already normalised. */
  lemma DefaultStepsNormalised()
    ensures NormaliseSteps(DefaultSteps) == DefaultSteps
  {
    assert forall i :: 0 <= i < |DefaultSteps| ==> DefaultSteps[i].value.Num?;
    NormaliseWithoutStrings(DefaultSteps);
  }
}

=== FILE: expiry.dfy ===
/** The expiration policy, `setExpires` (index.js:235-267), and the
    once-a-minute counter reset (index.js:108-112). The call counter and the
    per-key TTL table are threaded through as an explicit state. */
module Expiry {
  import opened Wrappers
  import opened Js
  import opened Duration
  import opened Routes
  import opened Setup

  /** `opts.callCnt` and `opts.expireOpts`, both keyed by request key. */
  datatype State = State(callCnt: map<string, int>, expireOpts: map<string, Value>)

  /** The result of `setExpires`: a TypeError (reading `has` of an undefined
      counter), or whether the request may be cached, with the new state. */
  datatype Expiry = Threw | Decided(ok: bool, state: State)

  /** `cntStep[0]` as a property name: `undefined` reads as the text
      "undefined" when the key list is empty. */
  function FirstStepKey(cntStep: seq<string>): string {
    if |cntStep| > 0 then cntStep[0] else "undefined"
  }

  /** The step loop (index.js:252-257): the first index at or after `from`
      whose key is strictly equal to the count. A count is a number and a key
      is text, so strict equality never holds. */
  function MatchingStep(cntStep: seq<string>, count: int, from: nat): (r: Option<nat>)
    decreases |cntStep| - from
    ensures r.Some? ==> from <= r.value < |cntStep| && StrictEquals(Num(count), Str(cntStep[r.value]))
    ensures r.None? ==> forall i :: from <= i < |cntStep| ==> !StrictEquals(Num(count), Str(cntStep[i]))
  {
    if from >= |cntStep| then None
    else if StrictEquals(Num(count), Str(cntStep[from])) then Some(from)
    else MatchingStep(cntStep, count, from + 1)
  }

  /** The adaptive branch is taken: the timeout is the tag and
      `opts.increasing` is defined. */
  predicate Adaptive(cfg: Config, timeout: Value) {
    StrictEquals(timeout, Str("increasing")) && cfg.steps.Some?
  }

  /** The TTL table entry an adaptive key gets on its first call. */
  function FirstStepTtl(cfg: Config): Value
    requires cfg.steps.Some?
  {
    Lookup(cfg.steps.value, FirstStepKey(cfg.cntStep))
  }

  /** `setExpires(index, key)`. */
  function SetExpires(cfg: Config, index: nat, key: string, st: State): (r: Expiry)
    requires index < |cfg.routes|
    ensures var t := cfg.routes[index].timeout;
            r.Threw? <==> Adaptive(cfg, t) && !cfg.counting
    ensures var t := cfg.routes[index].timeout;
            r.Decided? && !r.ok <==> t == Bool(false)
    ensures r.Decided? && (!r.ok || cfg.routes[index].timeout == Bool(true)) ==> r.state == st
    ensures r.Decided? ==> r.state.callCnt - {key} == st.callCnt - {key}
    ensures r.Decided? ==> r.state.expireOpts - {key} == st.expireOpts - {key}
    ensures var t := cfg.routes[index].timeout;
            r.Decided? && !Adaptive(cfg, t) ==> r.state.callCnt == st.callCnt
    ensures var t := cfg.routes[index].timeout;
            r.Decided? && !t.Bool? && !Adaptive(cfg, t) ==>
              key in r.state.expireOpts && r.state.expireOpts[key] == t
    ensures var t := cfg.routes[index].timeout;
            r.Decided? && Adaptive(cfg, t) ==>
              && key in r.state.callCnt
              && r.state.callCnt[key] == (if key in st.callCnt then st.callCnt[key] + 1 else 1)
    ensures var t := cfg.routes[index].timeout;
            r.Decided? && Adaptive(cfg, t) && key !in st.callCnt ==>
              key in r.state.expireOpts && r.state.expireOpts[key] == FirstStepTtl(cfg)
    ensures var t := cfg.routes[index].timeout;
            r.Decided? && Adaptive(cfg, t) && key in st.callCnt ==> r.state.expireOpts == st.expireOpts
  {
    var timeout := cfg.routes[index].timeout;
    if StrictEquals(timeout, Bool(false)) then Decided(false, st)
    else if timeout.Bool? then Decided(true, st)
    else if Adaptive(cfg, timeout) then
      if !cfg.counting then Threw
      else if key in st.callCnt then
        var count := st.callCnt[key] + 1;
        var callCnt := st.callCnt[key := count];
        match MatchingStep(cfg.cntStep, count, 0)
        case Some(i) => Decided(true, State(callCnt, st.expireOpts[key := Lookup(cfg.steps.value, cfg.cntStep[i])]))
        case None => Decided(true, State(callCnt, st.expireOpts))
      else
        Decided(true, State(st.callCnt[key := 1], st.expireOpts[key := FirstStepTtl(cfg)]))
    else Decided(true, State(st.callCnt, st.expireOpts[key := timeout]))
  }

  /** The interval callback: a fresh counter map; the TTL table stays. */
  function ResetCounters(st: State): (r: State)
    ensures r.callCnt == map[] && r.expireOpts == st.expireOpts
  {
    State(map[], st.expireOpts)
  }

  /** `n` consecutive evaluations of route `index` for the same key. */
  function Repeat(cfg: Config, index: nat, key: string, st: State, n: nat): State
    requires index < |cfg.routes|
    decreases n
  {
    if n == 0 then st
    else
      var prev := Repeat(cfg, index, key, st, n - 1);
      match SetExpires(cfg, index, key, prev)
      case Decided(_, s) => s
      case Threw => prev
  }

  /** Under the adaptive policy the counter goes up by one per call, but the
      TTL recorded for the key stays at the first step's value however often
      the key is requested: the step loop never matches. */
  lemma {:induction false} AdaptiveTtlStaysAtFirstStep(cfg: Config, index: nat, key: string, st: State, n: nat)
    requires index < |cfg.routes| && Adaptive(cfg, cfg.routes[index].timeout) && cfg.counting
    requires key !in st.callCnt
    requires n >= 1
    ensures var s := Repeat(cfg, index, key, st, n);
            key in s.callCnt && s.callCnt[key] == n
            && key in s.expireOpts && s.expireOpts[key] == FirstStepTtl(cfg)
  {
    if n > 1 {
      AdaptiveTtlStaysAtFirstStep(cfg, index, key, st, n - 1);
      var prev := Repeat(cfg, index, key, st, n - 1);
      var count := prev.callCnt[key] + 1;
      assert MatchingStep(cfg.cntStep, count, 0).None? by {
        NoStepMatches(cfg.cntStep, count, 0);
      }
    }
  }

  /** No count is strictly equal to a step key. */
  lemma {:induction false} NoStepMatches(cntStep: seq<string>, count: int, from: nat)
    ensures MatchingStep(cntStep, count, from).None?
    decreases |cntStep| - from
  {
    if from < |cntStep| {
      NoStepMatches(cntStep, count, from + 1);
    }
  }

  /** With the default step table, every call of an adaptive key leaves a TTL
      of 1000 ms, the first call as much as the fifth or the fiftieth. */
  lemma DefaultScheduleIsFlat(entries: seq<(string, RawRoute)>, index: nat, key: string, st: State, n: nat)
    requires CreatesCounter(entries)
    requires index < |NormaliseTable(entries)| && NormaliseTable(entries)[index].timeout == Str("increasing")
    requires key !in st.callCnt && n >= 1
    ensures var s := Repeat(Configure(entries, None), index, key, st, n);
            key in s.expireOpts && s.expireOpts[key] == Num(1000)
  {
    var cfg := Configure(entries, None);
    DefaultFirstStep(entries);
    AdaptiveTtlStaysAtFirstStep(cfg, index, key, st, n);
  }

  /** With the default table the first step's TTL is 1000 ms. */
  lemma DefaultFirstStep(entries: seq<(string, RawRoute)>)
    requires CreatesCounter(entries)
    ensures Configure(entries, None).counting
    ensures Configure(entries, None).steps.Some? && FirstStepTtl(Configure(entries, None)) == Num(1000)
  {
    var cfg := Configure(entries, None);
    assert cfg == Config(NormaliseTable(entries), true, Some(NormaliseSteps(DefaultSteps)), Keys(DefaultSteps));
    DefaultStepsNormalised();
    assert Keys(DefaultSteps)[0] == "1";
  }

  /** If the first configured step is a string that normalisation deletes,
      the first call of an adaptive key records `undefined` as its TTL: the
      key list was captured before the deletion. */
  lemma DeletedFirstStepGivesUndefined(entries: seq<(string, RawRoute)>, table: seq<Step>, index: nat, key: string, st: State)
    requires CreatesCounter(entries) && DistinctKeys(table)
    requires |table| > 0 && table[0].value.Str? && ParseDuration(table[0].value.s).None?
    requires index < |Configure(entries, Some(table)).routes|
    requires Configure(entries, Some(table)).routes[index].timeout == Str("increasing")
    requires key !in st.callCnt
    ensures var r := SetExpires(Configure(entries, Some(table)), index, key, st);
            r.Decided? && key in r.state.expireOpts && r.state.expireOpts[key] == Undefined
  {
    var cfg := Configure(entries, Some(table));
    assert FirstStepKey(cfg.cntStep) == table[0].key;
    NormaliseLookup(table, table[0].key);
  }

  /** After the reset, the next call of an adaptive key starts over at count
      1 and the first step's TTL, whatever the key had reached. */
  lemma ResetRestartsCount(cfg: Config, index: nat, key: string, st: State)
    requires index < |cfg.routes| && Adaptive(cfg, cfg.routes[index].timeout) && cfg.counting
    ensures var r := SetExpires(cfg, index, key, ResetCounters(st));
            r.Decided? && r.state.callCnt == map[key := 1]
            && r.state.expireOpts == st.expireOpts[key := FirstStepTtl(cfg)]
  {
  }
}

=== FILE: js.dfy ===
/** The few JavaScript value semantics the engine's decisions depend on: the
    kinds of value a route table or a TTL table holds, `Number(…)`/`isNaN`
    coercion, and strict equality `===`. */
module Js {
  import opened Wrappers

  /** A JavaScript value as far as the engine inspects it. Numbers are
      integral; `NaN` is kept apart because it is the one number that is not
      equal to itself. */
  datatype Value = Undefined | Bool(b: bool) | Num(n: int) | NaN | Str(s: string)

  predicate IsDigit(c: char) { '0' <= c <= '9' }

  predicate AllDigits(s: string) { forall i :: 0 <= i < |s| ==> IsDigit(s[i]) }

  /** The value of a decimal digit string; the empty string reads as 0, as
      `Number("")` does. */
  function DecimalValue(s: string): nat
    requires AllDigits(s)
  {
    if |s| == 0 then 0
    else DecimalValue(s[..|s| - 1]) * 10 + (s[|s| - 1] as int - '0' as int)
  }

  /** `Number(v)`; `None` stands for NaN. */
  function ToNumber(v: Value): Option<int> {
    match v
    case Undefined => None
    case Bool(b) => Some(if b then 1 else 0)
    case Num(n) => Some(n)
    case NaN => None
    case Str(s) => if AllDigits(s) then Some(DecimalValue(s)) else None
  }

  /** `isNaN(v)` */
  predicate IsNaN(v: Value) {
    ToNumber(v).None?
  }

  /** `a === b`: same type and same value, and NaN equals nothing. */
  predicate StrictEquals(a: Value, b: Value) {
    a == b && !a.NaN?
  }
}

=== FILE: matcher.dfy ===
/** The two matcher shapes a route key compiles to (index.js:58-71): a
    parameter pattern for keys with `:name` segments and a wildcard pattern for
    keys with `*`. The compiled regular expressions are modelled directly as
    predicates on the request path. */
module Matcher {
  import opened Wrappers
  import opened Text

  /** `[A-z0-9]`. The range A-z runs from 'A' to 'z' and so also takes in the
      six characters between 'Z' and 'a'. */
  predicate InClass(c: char) {
    ('A' <= c <= 'z') || ('0' <= c <= '9')
  }

  predicate AllInClass(s: string) {
    forall i :: 0 <= i < |s| ==> InClass(s[i])
  }

  /** The class takes `[`, `\`, `]`, `^`, `_` and the backtick, but never the
      path separator. */
  lemma ClassBoundary()
    ensures InClass('[') && InClass('\\') && InClass(']') && InClass('^') && InClass('_') && InClass('`')
    ensures !InClass('/') && !InClass(':')
  {
  }

  /** One element of a compiled parameter pattern: a literal character, or a
      `[A-z0-9]+` run that replaced a `:name` segment. */
  datatype Token = Lit(c: char) | Param

  datatype Matcher =
    | ParamPattern(anchored: bool, tokens: seq<Token>)   // `^` only when the key starts with '/'
    | Wildcard(prefix: string, suffix: string)           // `prefix.*suffix`, unanchored

  /** Length of the longest prefix of `s` made of class characters. */
  function ClassRun(s: string): (n: nat)
    ensures n <= |s|
    ensures AllInClass(s[..n])
    ensures n < |s| ==> !InClass(s[n])
  {
    if |s| == 0 || !InClass(s[0]) then 0
    else
      var n := 1 + ClassRun(s[1..]);
      assert s[..n] == [s[0]] + s[1..][..n - 1];
      n
  }

  /** `key.replace(/:[A-z0-9]+/g, '[A-z0-9]+')`, read as tokens: a ':' followed
      by the longest run of class characters becomes one `Param`; every other
      character stands for itself. */
  function Tokenize(key: string): (ts: seq<Token>)
    ensures |ts| <= |key|
    ensures ':' !in key ==> ts == Lits(key)
    decreases |key|
  {
    if |key| == 0 then []
    else if key[0] == ':' && |key| > 1 && InClass(key[1]) then
      [Param] + Tokenize(key[1 + ClassRun(key[1..])..])
    else
      var rest := Tokenize(key[1..]);
      LitsCons(key, ':' !in key);
      [Lit(key[0])] + rest
  }

  /** Without ':' the tail of a key has none either, and the literal tokens
      of a key are its first literal followed by those of its tail. */
  lemma LitsCons(key: string, noColon: bool)
    requires |key| > 0 && (noColon <==> ':' !in key)
    ensures noColon ==> ':' !in key[1..]
    ensures Lits(key) == [Lit(key[0])] + Lits(key[1..])
  {
  }

  /** The literal tokens spelling `s`. */
  function Lits(s: string): (ts: seq<Token>)
    ensures |ts| == |s|
    ensures forall i :: 0 <= i < |s| ==> ts[i] == Lit(s[i])
  {
    seq(|s|, i requires 0 <= i < |s| => Lit(s[i]))
  }

  /** The matcher of a route key, if any (index.js:59-71). A '*' key gets a
      wildcard matcher in which only the first '*' is special; it replaces the
      parameter pattern a ':' in the same key would have produced. A key with
      neither marker gets none and can only match exactly. */
  function Compile(key: string): (m: Option<Matcher>)
    ensures m.None? <==> ':' !in key && '*' !in key
    ensures '*' in key ==>
              && m.Some? && m.value.Wildcard?
              && key == m.value.prefix + "*" + m.value.suffix && '*' !in m.value.prefix
    ensures m.Some? && m.value.ParamPattern? ==> (m.value.anchored <==> key[0] == '/')
    ensures '*' !in key && ':' in key ==> m == Some(ParamPattern(key[0] == '/', Tokenize(key)))
  {
    match IndexOf(key, "*", 0)
    case Some(i) =>
      FirstStar(key, i);
      Some(Wildcard(key[..i], key[i + 1..]))
    case None =>
      NoStar(key);
      if ':' in key then Some(ParamPattern(key[0] == '/', Tokenize(key)))
      else None
  }

  /** The first '*' splits the key around it. */
  lemma FirstStar(key: string, i: nat)
    requires OccursAt(key, "*", i) && forall j :: 0 <= j < i ==> !OccursAt(key, "*", j)
    ensures i < |key| && '*' !in key[..i] && key == key[..i] + "*" + key[i + 1..]
  {
    assert key[i..i + 1] == "*";
    forall j | 0 <= j < i ensures key[..i][j] != '*' {
      assert !OccursAt(key, "*", j);
      assert key[j..j + 1] == [key[j]];
    }
    assert key == key[..i] + "*" + key[i + 1..];
  }

  /** No occurrence of "*" means no '*' character. */
  lemma NoStar(key: string)
    requires forall j :: 0 <= j ==> !OccursAt(key, "*", j)
    ensures '*' !in key
  {
    forall j | 0 <= j < |key| ensures key[j] != '*' {
      assert !OccursAt(key, "*", j);
      assert key[j..j + 1] == [key[j]];
    }
  }

  /** The tokens match the whole of `s`, backtracking over the length of each
      `Param` run. */
  predicate MatchTokens(toks: seq<Token>, s: string)
    decreases |toks|
  {
    if |toks| == 0 then |s| == 0
    else
      match toks[0]
      case Lit(c) => |s| > 0 && s[0] == c && MatchTokens(toks[1..], s[1..])
      case Param => exists k | 1 <= k <= |s| :: AllInClass(s[..k]) && MatchTokens(toks[1..], s[k..])
  }

  /** The pattern followed by `(?:\/)?$`: the tokens match all of `u`, or all
      of `u` except one final '/'. */
  predicate TailMatch(toks: seq<Token>, u: string) {
    MatchTokens(toks, u) || (|u| > 0 && u[|u| - 1] == '/' && MatchTokens(toks, u[..|u| - 1]))
  }

  /** `prefix.*suffix` found anywhere in `path`, searched the way a
      backtracking matcher finds it: leftmost prefix, then any later suffix. */
  predicate WildcardTest(prefix: string, suffix: string, path: string) {
    match IndexOf(path, prefix, 0)
    case None => false
    case Some(i) => IndexOf(path, suffix, i + |prefix|).Some?
  }

  /** `regex.test(path)`. A wildcard accepts exactly the paths its
      declarative reading describes; a parameter pattern accepts every path
      its tokens match from the start, anchored or not. */
  predicate Test(m: Matcher, path: string): (b: bool)
    ensures m.Wildcard? ==> (b <==> WildcardSpec(m.prefix, m.suffix, path))
    ensures m.ParamPattern? && TailMatch(m.tokens, path) ==> b
  {
    match m
    case ParamPattern(anchored, toks) =>
      if anchored then TailMatch(toks, path)
      else
        assert path[0..] == path;
        exists i | 0 <= i <= |path| :: TailMatch(toks, path[i..])
    case Wildcard(prefix, suffix) =>
      WildcardSearchComplete(prefix, suffix, path);
      WildcardTest(prefix, suffix, path)
  }

  /** The declarative reading of an unanchored `prefix.*suffix`: the prefix
      occurs somewhere and the suffix occurs at or after its end. */
  ghost predicate WildcardSpec(prefix: string, suffix: string, path: string) {
    exists i, j :: OccursAt(path, prefix, i) && i + |prefix| <= j && OccursAt(path, suffix, j)
  }

  /** Searching from the leftmost prefix loses no match. */
  lemma WildcardSearchComplete(prefix: string, suffix: string, path: string)
    ensures WildcardTest(prefix, suffix, path) <==> WildcardSpec(prefix, suffix, path)
  {
    match IndexOf(path, prefix, 0)
    case None =>
    case Some(i0) =>
      if WildcardSpec(prefix, suffix, path) {
        var i, j :| OccursAt(path, prefix, i) && i + |prefix| <= j && OccursAt(path, suffix, j);
        assert i0 <= i;
        assert IndexOf(path, suffix, i0 + |prefix|).Some?;
      }
      if WildcardTest(prefix, suffix, path) {
        var j := IndexOf(path, suffix, i0 + |prefix|).value;
        assert OccursAt(path, prefix, i0) && i0 + |prefix| <= j && OccursAt(path, suffix, j);
      }
  }

  /** Tokenizing a key whose head holds no ':' spells the head out literally. */
  lemma {:induction false} TokenizeLiteralHead(head: string, rest: string)
    requires ':' !in head
    ensures Tokenize(head + rest) == Lits(head) + Tokenize(rest)
  {
    if |head| > 0 {
      var key := head + rest;
      assert key[0] == head[0] && head[0] != ':';
      assert Tokenize(key) == [Lit(head[0])] + Tokenize(key[1..]);
      assert key[1..] == head[1..] + rest;
      LitsCons(head, true);
      TokenizeLiteralHead(head[1..], rest);
    } else {
      assert head + rest == rest;
    }
  }

  /** A literal head followed by one parameter matches exactly the head
      followed by a non-empty run of class characters. */
  lemma {:induction false} MatchHeadThenParam(head: string, u: string)
    ensures MatchTokens(Lits(head) + [Param], u)
        <==> |u| > |head| && u[..|head|] == head && AllInClass(u[|head|..])
  {
    if |head| == 0 {
      assert Lits(head) + [Param] == [Param];
      var one: seq<Token> := [Param];
      assert one[1..] == [];
      if |u| > 0 && AllInClass(u) {
        assert u[..|u|] == u;
        assert MatchTokens([], u[|u|..]);
      }
      if MatchTokens([Param], u) {
        var k :| 1 <= k <= |u| && AllInClass(u[..k]) && MatchTokens([], u[k..]);
        assert u[..k] == u;
      }
    } else {
      var toks := Lits(head) + [Param];
      assert toks[0] == Lit(head[0]);
      assert toks[1..] == Lits(head[1..]) + [Param];
      if |u| > 0 {
        MatchHeadThenParam(head[1..], u[1..]);
        if |u| > |head| {
          assert u[1..][|head| - 1..] == u[|head|..];
          assert u[..|head|] == [u[0]] + u[1..][..|head| - 1];
        }
      }
    }
  }

  /** A ':name' segment inside a key becomes one `Param` token, whatever
      follows it, provided the segment ends where the class run ends. */
  lemma TokenizeParam(a: string, name: string, b: string)
    requires ':' !in a
    requires |name| > 0 && AllInClass(name)
    requires |b| == 0 || !InClass(b[0])
    ensures Tokenize(a + (":" + name + b)) == Lits(a) + ([Param] + Tokenize(b))
  {
    TokenizeLiteralHead(a, ":" + name + b);
    TokenizeSegment(name, b);
  }

  /** The segment itself: ':' and its class run give one `Param`. */
  lemma TokenizeSegment(name: string, b: string)
    requires |name| > 0 && AllInClass(name)
    requires |b| == 0 || !InClass(b[0])
    ensures Tokenize(":" + name + b) == [Param] + Tokenize(b)
  {
    var s := ":" + name + b;
    var run := name + b;
    assert s[1..] == run && s[0] == ':' && s[1] == name[0];
    assert ClassRun(run) == |name| by { ClassRunOf(name, b); }
    assert s[1 + |name|..] == b;
    assert Tokenize(s) == [Param] + Tokenize(s[1 + ClassRun(s[1..])..]);
  }

  /** The class run of a class word stops where the word stops. */
  lemma {:induction false} ClassRunOf(name: string, b: string)
    requires AllInClass(name)
    requires |b| == 0 || !InClass(b[0])
    ensures ClassRun(name + b) == |name|
  {
    if |name| == 0 {
      assert name + b == b;
    } else {
      assert (name + b)[0] == name[0];
      assert (name + b)[1..] == name[1..] + b;
      ClassRunOf(name[1..], b);
    }
  }

  /** The path starts with the head `a`, a non-empty class run follows, and
      `rest` matches what remains after some such run. */
  ghost predicate HeadRunThen(a: string, rest: seq<Token>, u: string) {
    && |u| > |a| && u[..|a|] == a
    && exists k :: |a| < k <= |u| && AllInClass(u[|a|..k]) && MatchTokens(rest, u[k..])
  }

  /** A literal head, then a parameter, then any further tokens: the path
      starts with the head, a non-empty class run follows, and the further
      tokens match what remains after some such run. */
  lemma {:induction false} MatchParamThen(a: string, rest: seq<Token>, u: string)
    ensures MatchTokens(Lits(a) + [Param] + rest, u)
        <==> && |u| > |a| && u[..|a|] == a
             && exists k :: |a| < k <= |u| && AllInClass(u[|a|..k]) && MatchTokens(rest, u[k..])
    decreases |a|
  {
    if |a| == 0 {
      MatchParamFirst(rest, u);
    } else if |u| == 0 {
      assert (Lits(a) + [Param] + rest)[0] == Lit(a[0]);
    } else {
      MatchParamThen(a[1..], rest, u[1..]);
      MatchLitThenStep(a, rest, u);
    }
    assert HeadRunThen(a, rest, u) <==> (&& |u| > |a| && u[..|a|] == a
             && exists k :: |a| < k <= |u| && AllInClass(u[|a|..k]) && MatchTokens(rest, u[k..]));
  }

  /** The base case: the parameter comes first. */
  lemma MatchParamFirst(rest: seq<Token>, u: string)
    ensures MatchTokens([] + [Param] + rest, u) <==> HeadRunThen([], rest, u)
  {
    var toks := [] + [Param] + rest;
    assert toks[0] == Param && toks[1..] == rest;
    if MatchTokens(toks, u) {
      var k :| 1 <= k <= |u| && AllInClass(u[..k]) && MatchTokens(rest, u[k..]);
      assert u[0..k] == u[..k];
    }
    if HeadRunThen([], rest, u) {
      var k :| 0 < k <= |u| && AllInClass(u[0..k]) && MatchTokens(rest, u[k..]);
      assert u[..k] == u[0..k];
    }
  }

  /** The step: one literal character in front of a shorter head. */
  lemma MatchLitThenStep(a: string, rest: seq<Token>, u: string)
    requires |a| > 0 && |u| > 0
    requires MatchTokens(Lits(a[1..]) + [Param] + rest, u[1..]) <==> HeadRunThen(a[1..], rest, u[1..])
    ensures MatchTokens(Lits(a) + [Param] + rest, u) <==> HeadRunThen(a, rest, u)
  {
    var toks := Lits(a) + [Param] + rest;
    assert toks[0] == Lit(a[0]);
    assert toks[1..] == Lits(a[1..]) + [Param] + rest;
    assert MatchTokens(toks, u) <==> u[0] == a[0] && HeadRunThen(a[1..], rest, u[1..]);
    HeadRunStep(a, rest, u);
  }

  /** The declarative side of the step. */
  lemma HeadRunStep(a: string, rest: seq<Token>, u: string)
    requires |a| > 0 && |u| > 0
    ensures HeadRunThen(a, rest, u) <==> u[0] == a[0] && HeadRunThen(a[1..], rest, u[1..])
  {
    if u[0] == a[0] && HeadRunThen(a[1..], rest, u[1..]) {
      HeadRunGrow(a, rest, u);
    }
    if HeadRunThen(a, rest, u) {
      HeadRunShrink(a, rest, u);
    }
  }

  lemma HeadRunGrow(a: string, rest: seq<Token>, u: string)
    requires |a| > 0 && |u| > 0 && u[0] == a[0] && HeadRunThen(a[1..], rest, u[1..])
    ensures HeadRunThen(a, rest, u)
  {
    var k' :| |a| - 1 < k' <= |u| - 1 && AllInClass(u[1..][|a| - 1..k']) && MatchTokens(rest, u[1..][k'..]);
    assert u[1..][|a| - 1..k'] == u[|a|..k' + 1] && u[1..][k'..] == u[k' + 1..];
    PrefixStep(a, u);
  }

  lemma HeadRunShrink(a: string, rest: seq<Token>, u: string)
    requires |a| > 0 && HeadRunThen(a, rest, u)
    ensures u[0] == a[0] && HeadRunThen(a[1..], rest, u[1..])
  {
    var k :| |a| < k <= |u| && AllInClass(u[|a|..k]) && MatchTokens(rest, u[k..]);
    assert u[1..][|a| - 1..k - 1] == u[|a|..k] && u[1..][k - 1..] == u[k..];
    PrefixStep(a, u);
  }

  /** A prefix is its first character and the prefix of the tail. */
  lemma PrefixStep(a: string, u: string)
    requires 0 < |a| <= |u|
    ensures u[..|a|] == a <==> u[0] == a[0] && u[1..][..|a| - 1] == a[1..]
  {
    assert u[..|a|] == [u[0]] + u[1..][..|a| - 1];
    assert a == [a[0]] + a[1..];
  }

  /** Literal tokens match exactly their own text. */
  lemma {:induction false} MatchLits(t: string, v: string)
    ensures MatchTokens(Lits(t), v) <==> v == t
  {
    if |t| > 0 {
      assert Lits(t)[0] == Lit(t[0]) && Lits(t)[1..] == Lits(t[1..]);
      if |v| > 0 {
        MatchLits(t[1..], v[1..]);
        assert v == [v[0]] + v[1..] && t == [t[0]] + t[1..];
      }
    } else {
      assert Lits(t) == [];
    }
  }

  /** A parameter in the middle of a key, as in "/users/:id/posts": the
      tokens are the head, one `Param` and the literal tail, and they match
      exactly the head, a non-empty class run, and the tail. */
  lemma MiddleParamKey(head: string, name: string, tail: string, u: string)
    requires ':' !in head
    requires |name| > 0 && AllInClass(name)
    requires ':' !in tail && |tail| > 0 && !InClass(tail[0])
    ensures Tokenize(head + (":" + name + tail)) == Lits(head) + ([Param] + Lits(tail))
    ensures MatchTokens(Lits(head) + [Param] + Lits(tail), u)
        <==> exists w :: |w| > 0 && AllInClass(w) && u == head + w + tail
  {
    assert Tokenize(tail) == Lits(tail) by {
      TokenizeLiteralHead(tail, "");
      assert tail + "" == tail && Lits(tail) + [] == Lits(tail);
    }
    TokenizeParam(head, name, tail);
    MatchHeadParamTail(head, tail, u);
  }

  lemma MatchHeadParamTail(head: string, tail: string, u: string)
    ensures MatchTokens(Lits(head) + [Param] + Lits(tail), u)
        <==> exists w :: |w| > 0 && AllInClass(w) && u == head + w + tail
  {
    MatchParamThen(head, Lits(tail), u);
    if MatchTokens(Lits(head) + [Param] + Lits(tail), u) {
      var k :| |head| < k <= |u| && AllInClass(u[|head|..k]) && MatchTokens(Lits(tail), u[k..]);
      MatchLits(tail, u[k..]);
      var w := u[|head|..k];
      assert u == u[..|head|] + w + u[k..];
    }
    if exists w :: |w| > 0 && AllInClass(w) && u == head + w + tail {
      var w :| |w| > 0 && AllInClass(w) && u == head + w + tail;
      var k := |head| + |w|;
      assert u[..|head|] == head && u[|head|..k] == w && u[k..] == tail;
      MatchLits(tail, u[k..]);
    }
  }

  /** A middle parameter key compiles to the head literals, one `Param` and
      the literal tail, anchored exactly when the key starts with '/'. */
  lemma MiddleParamCompile(head: string, name: string, tail: string)
    requires ':' !in head && '*' !in head
    requires |name| > 0 && AllInClass(name)
    requires ':' !in tail && '*' !in tail && |tail| > 0 && !InClass(tail[0])
    ensures var key := head + ":" + name + tail;
            Compile(key) == Some(ParamPattern(key[0] == '/', Lits(head) + [Param] + Lits(tail)))
  {
    ParamKeyMarkers(head, name, tail);
    TokenizeParam(head, name, tail);
    assert Tokenize(tail) == Lits(tail);
    assert Lits(head) + ([Param] + Lits(tail)) == Lits(head) + [Param] + Lits(tail);
  }

  /** A key built from a ':name' segment has a ':' and, when its parts have
      none, no '*'. */
  lemma ParamKeyMarkers(head: string, name: string, tail: string)
    requires '*' !in head && '*' !in tail && AllInClass(name)
    ensures var key := head + ":" + name + tail;
            && key == head + (":" + name + tail)
            && ':' in key && '*' !in key
  {
    var key := head + ":" + name + tail;
    assert key[|head|] == ':';
    assert key == head + ([':'] + name) + tail;
    assert forall j :: 0 <= j < |name| ==> name[j] != '*';
  }

  /** An anchored head-parameter-tail pattern accepts exactly the head, a
      non-empty class run and the tail, with one optional trailing '/'. */
  lemma MiddleParamAccepts(head: string, tail: string, path: string)
    ensures Test(ParamPattern(true, Lits(head) + [Param] + Lits(tail)), path)
        <==> exists w :: |w| > 0 && AllInClass(w) && (path == head + w + tail || path == head + w + tail + "/")
  {
    MatchHeadParamTail(head, tail, path);
    if |path| > 0 && path[|path| - 1] == '/' {
      SlashedMatch(head, tail, path);
    }
    if exists w :: |w| > 0 && AllInClass(w) && path == head + w + tail + "/" {
      var w :| |w| > 0 && AllInClass(w) && path == head + w + tail + "/";
      assert path[|path| - 1] == '/';
      SlashedMatch(head, tail, path);
    }
  }

  /** With a final '/', the tokens match the rest of the path exactly when the
      path is the head, a class run, the tail and that '/'. */
  lemma SlashedMatch(head: string, tail: string, path: string)
    requires |path| > 0 && path[|path| - 1] == '/'
    ensures MatchTokens(Lits(head) + [Param] + Lits(tail), path[..|path| - 1])
        <==> exists w :: |w| > 0 && AllInClass(w) && path == head + w + tail + "/"
  {
    var v := path[..|path| - 1];
    assert path == v + "/";
    MatchHeadParamTail(head, tail, v);
    if exists w :: |w| > 0 && AllInClass(w) && path == head + w + tail + "/" {
      var w :| |w| > 0 && AllInClass(w) && path == head + w + tail + "/";
      assert v == head + w + tail;
    }
  }

  /** An unanchored pattern accepts a path exactly when the anchored pattern
      with the same tokens accepts some suffix of it. */
  lemma UnanchoredSearch(toks: seq<Token>, path: string)
    ensures Test(ParamPattern(false, toks), path)
        <==> exists i :: 0 <= i <= |path| && Test(ParamPattern(true, toks), path[i..])
  {
  }

  /** The route "/users/:id/posts", stated through the compiled pattern and
      `regex.test`: a middle parameter key whose head starts with '/'
      accepts exactly the head, one class run and the tail, with one
      optional trailing '/'. */
  lemma MiddleParamRoute(head: string, name: string, tail: string, path: string)
    requires |head| > 0 && head[0] == '/' && ':' !in head && '*' !in head
    requires |name| > 0 && AllInClass(name)
    requires ':' !in tail && '*' !in tail && |tail| > 0 && !InClass(tail[0])
    ensures Compile(head + ":" + name + tail) == Some(ParamPattern(true, Lits(head) + [Param] + Lits(tail)))
    ensures Test(ParamPattern(true, Lits(head) + [Param] + Lits(tail)), path)
        <==> exists w :: |w| > 0 && AllInClass(w) && (path == head + w + tail || path == head + w + tail + "/")
  {
    MiddleParamCompile(head, name, tail);
    assert (head + ":" + name + tail)[0] == head[0];
    MiddleParamAccepts(head, tail, path);
  }

  /** A key made of a literal head starting with '/' and one `:name` segment
      at its end compiles to an anchored pattern that accepts exactly the head
      followed by one or more class characters, with one optional trailing
      '/'. No path with another '/' after the head is accepted. */
  lemma SingleParamKey(head: string, name: string, path: string)
    requires |head| > 0 && head[0] == '/' && ':' !in head && '*' !in head
    requires |name| > 0 && AllInClass(name)
    ensures Compile(head + ":" + name) == Some(ParamPattern(true, Lits(head) + [Param]))
    ensures Test(ParamPattern(true, Lits(head) + [Param]), path)
        <==> exists w :: |w| > 0 && AllInClass(w) && (path == head + w || path == head + w + "/")
  {
    SingleParamCompile(head, name);
    SingleParamAccepts(head, path);
  }

  lemma SingleParamCompile(head: string, name: string)
    requires |head| > 0 && head[0] == '/' && ':' !in head && '*' !in head
    requires |name| > 0 && AllInClass(name)
    ensures Compile(head + ":" + name) == Some(ParamPattern(true, Lits(head) + [Param]))
  {
    var key := head + ":" + name;
    assert key[|head|] == ':';
    assert '*' !in key by {
      assert key == head + ([':'] + name);
      assert forall j :: 0 <= j < |name| ==> name[j] != '*';
    }
    TokenizeLiteralHead(head, ":" + name);
    assert Tokenize(":" + name) == [Param] by {
      assert (":" + name)[1..] == name;
      assert ClassRun(name) == |name|;
      assert (":" + name)[1 + |name|..] == [];
    }
    assert key == head + (":" + name);
    assert Tokenize(key) == Lits(head) + [Param];
    assert IndexOf(key, "*", 0).None?;
    assert key[0] == '/' && ':' in key;
  }

  lemma SingleParamAccepts(head: string, path: string)
    ensures Test(ParamPattern(true, Lits(head) + [Param]), path)
        <==> exists w :: |w| > 0 && AllInClass(w) && (path == head + w || path == head + w + "/")
  {
    var toks := Lits(head) + [Param];
    if Test(ParamPattern(true, toks), path) {
      if MatchTokens(toks, path) {
        MatchHeadThenParam(head, path);
        var w := path[|head|..];
        assert path == head + w;
      } else {
        var v := path[..|path| - 1];
        assert path == v + [path[|path| - 1]] && path[|path| - 1] == '/';
        MatchHeadThenParam(head, v);
        var w := v[|head|..];
        assert v == head + w;
        assert path == head + w + "/";
      }
    }
    if exists w :: |w| > 0 && AllInClass(w) && (path == head + w || path == head + w + "/") {
      var w :| |w| > 0 && AllInClass(w) && (path == head + w || path == head + w + "/");
      if path == head + w {
        MatchHeadThenParam(head, path);
        assert path[..|head|] == head && path[|head|..] == w;
      } else {
        var v := head + w;
        assert path[..|path| - 1] == v;
        MatchHeadThenParam(head, v);
        assert v[..|head|] == head && v[|head|..] == w;
      }
    }
  }

  /** A parameter key that does not start with '/' is not anchored at the
      start: it accepts its head and parameter run after any text at all, so
      "api/:id" accepts "/v1/api/7" as well as "api/7". */
  lemma UnanchoredParamKey(head: string, name: string, before: string, w: string)
    requires |head| > 0 && head[0] != '/' && ':' !in head && '*' !in head
    requires |name| > 0 && AllInClass(name)
    requires |w| > 0 && AllInClass(w)
    ensures Compile(head + ":" + name) == Some(ParamPattern(false, Lits(head) + [Param]))
    ensures Test(ParamPattern(false, Lits(head) + [Param]), before + head + w)
  {
    var key := head + ":" + name;
    assert key[|head|] == ':';
    assert '*' !in key by {
      assert key == head + ([':'] + name);
      assert forall j :: 0 <= j < |name| ==> name[j] != '*';
    }
    TokenizeLiteralHead(head, ":" + name);
    assert Tokenize(":" + name) == [Param] by {
      assert (":" + name)[1..] == name;
      assert ClassRun(name) == |name|;
      assert (":" + name)[1 + |name|..] == [];
    }
    assert key[0] == head[0];
    var u := head + w;
    var path := before + head + w;
    assert path[|before|..] == u;
    assert u[..|head|] == head && u[|head|..] == w;
    MatchHeadThenParam(head, u);
    assert TailMatch(Lits(head) + [Param], path[|before|..]);
  }
}

=== FILE: redis.dfy ===
/** The Redis store driver (lib/drivers/redis.js): the reconnection policy
    with its lock flag, the existence check, and the expiry `set` gives a
    written key. */
module RedisDriver {
  import opened Wrappers
  import opened Js
  import opened Setup
  import opened Dispatch

  /** The connection's `_lock` flag: raised when connecting first fails,
      lowered on 'ready'. */
  datatype Conn = Conn(lock: bool)

  /** What `retryStrategy` returns: a delay in milliseconds before the next
      attempt, or `false`, which stops reconnecting. */
  datatype Retry = Delay(ms: nat) | GiveUp

  /** One call of `retryStrategy`: the flag afterwards, the answer, and
      whether the driver emitted 'fail'. */
  datatype RetryStep = RetryStep(conn: Conn, retry: Retry, emitsFail: bool)

  /** `retryStrategy(times)` (lib/drivers/redis.js:24-35). */
  function RetryStrategy(c: Conn, times: nat): (r: RetryStep)
    ensures r.retry.GiveUp? <==> times == 5
    ensures r.retry.Delay? ==> r.retry.ms == 1000
    ensures r.emitsFail <==> r.retry.GiveUp?
    ensures r.conn.lock <==> c.lock || times == 1
  {
    var lock := if times == 1 && !c.lock then true else c.lock;
    if times == 5 then RetryStep(Conn(lock), GiveUp, true)
    else RetryStep(Conn(lock), Delay(1 * 1000), false)
  }

  /** The 'ready' handler (lib/drivers/redis.js:38-41). */
  function OnReady(c: Conn): (r: Conn)
    ensures !r.lock
  {
    if c.lock then Conn(false) else c
  }

  /** Consecutive failed attempts numbered `times`, `times + 1`, … , at most
      `n` of them, ending early when the strategy gives up: the flag
      afterwards, the answers in order, and whether 'fail' was emitted. */
  function FailRun(c: Conn, times: nat, n: nat): (Conn, seq<Retry>, bool)
    decreases n
  {
    if n == 0 then (c, [], false)
    else
      var step := RetryStrategy(c, times);
      if step.retry.GiveUp? then (step.conn, [GiveUp], true)
      else
        var rest := FailRun(step.conn, times + 1, n - 1);
        (rest.0, [step.retry] + rest.1, rest.2)
  }

  /** From the first failure on, every attempt but the fifth is retried after
      1000 ms, the fifth gives up and emits 'fail', and nothing follows it;
      the flag is raised from the first failure on. */
  lemma {:induction false} FailuresFromFirst(c: Conn, times: nat, n: nat)
    requires 1 <= times <= 5
    ensures var (c2, rs, failed) := FailRun(c, times, n);
            && |rs| == (if times + n > 5 then 6 - times else n)
            && (forall i :: 0 <= i < |rs| ==> (rs[i] == GiveUp <==> times + i == 5))
            && (forall i :: 0 <= i < |rs| && rs[i] != GiveUp ==> rs[i] == Delay(1000))
            && (failed <==> times + n > 5)
            && (c2.lock <==> c.lock || (times == 1 && n > 0))
    decreases n
  {
    if n > 0 {
      var step := RetryStrategy(c, times);
      if times < 5 {
        FailuresFromFirst(step.conn, times + 1, n - 1);
        var rest := FailRun(step.conn, times + 1, n - 1);
        assert FailRun(c, times, n).1 == [Delay(1000)] + rest.1;
      }
    }
  }

  /** The flag is lowered by 'ready' whatever failures came before. */
  lemma ReadyAfterFailures(c: Conn, n: nat)
    requires 0 < n < 5
    ensures FailRun(c, 1, n).0.lock && !OnReady(FailRun(c, 1, n).0).lock
  {
    FailuresFromFirst(c, 1, n);
  }

  /** `has(key)` from the reply of EXISTS, the number of the given keys that
      exist (lib/drivers/redis.js:48-53): true for any non-zero count. */
  function HasFromReply(reply: nat): (b: bool)
    ensures b <==> reply != 0
  {
    reply > 0
  }

  /** The reply of EXISTS for one key over the keys the server holds. */
  function ExistsReply(stored: set<string>, key: string): nat {
    if key in stored then 1 else 0
  }

  /** The driver's `has` on the `:headers` entry is the dispatcher's hit
      test: a cacheable GET is served from the store exactly when EXISTS
      reports that entry. */
  lemma HasDecidesHit(cfg: Config, key: string, st: Expiry.State, req: CacheKey.Request, store: map<string, Entry>,
                      resp: Response, origin: Response)
    requires !NoCache(req) && req.verb == "GET"
    ensures HasFromReply(ExistsReply(store.Keys, HeadersKey(key))) <==> Continue(cfg, key, st, req, store, resp, origin).kind == Hit
  {
  }

  /** A command sent to the server by `set`. */
  datatype Command<V> = Write(key: string, value: V) | Expire(key: string, seconds: Option<real>)

  /** The expiry in seconds `set` gives a key (lib/drivers/redis.js:61-64):
      the key's own TTL table entry divided by 1000, or the default timeout
      divided by 1000. `None` is NaN. A digit-string entry, stored verbatim
      from a route timeout such as "3000", is coerced by the division. */
  function ExpireSeconds(expireOpts: map<string, Value>, key: string): (r: Option<real>)
    ensures key !in expireOpts ==> r == Some(5.0)
    ensures key in expireOpts && expireOpts[key].Num? ==> r == Some(expireOpts[key].n as real / 1000.0)
    ensures key in expireOpts && (expireOpts[key].Undefined? || expireOpts[key].NaN?) ==> r.None?
    ensures key in expireOpts ==> (r.None? <==> ToNumber(expireOpts[key]).None?)
    ensures key in expireOpts && r.Some? ==> r.value == ToNumber(expireOpts[key]).value as real / 1000.0
    ensures key in expireOpts && expireOpts[key].Str? && AllDigits(expireOpts[key].s) ==>
              r == Some(DecimalValue(expireOpts[key].s) as real / 1000.0)
  {
    if key in expireOpts then
      match ToNumber(expireOpts[key])
      case Some(ms) => Some(ms as real / 1000.0)
      case None => None
    else Some(DefaultTimeout as real / 1000.0)
  }

  /** `set(key, value)`: write the value, then set the key's expiry. */
  function SetCommands<V>(key: string, value: V, expireOpts: map<string, Value>): (cmds: seq<Command<V>>)
    ensures |cmds| == 2 && cmds[0] == Write(key, value)
    ensures cmds[1].Expire? && cmds[1].key == key
    ensures key !in expireOpts ==> cmds[1].seconds == Some(5.0)
  {
    [Write(key, value), Expire(key, ExpireSeconds(expireOpts, key))]
  }

  /** The TTL table is read under the exact key written: a TTL recorded for a
      request key does not reach its `:headers` entry, which gets the default
      5 seconds unless that suffixed key has an entry of its own. */
  lemma SuffixedKeyGetsDefault(expireOpts: map<string, Value>, key: string, ms: int)
    requires key in expireOpts && expireOpts[key] == Num(ms)
    requires key + ":headers" !in expireOpts
    ensures ExpireSeconds(expireOpts, key) == Some(ms as real / 1000.0)
    ensures SetCommands(key + ":headers", 0, expireOpts)[1].seconds == Some(5.0)
  {
  }
}

=== FILE: routes.dfy ===
/** The route table as configured and as normalised at setup
    (index.js:13-72): each raw route value becomes a record with a timeout,
    optional cache-key arguments and optional matcher, or is dropped. */
module Routes {
  import opened Wrappers
  import opened Js
  import opened Matcher
  import opened Seqs

  /** One `headers` or `query` entry of `cacheKeyArgs`. */
  datatype Arg = ArgAbsent | ArgText(s: string) | ArgList(names: seq<string>) | ArgFlag(b: bool)

  /** A configured `cacheKeyArgs` value. */
  datatype RawArgs =
    | NoArgs                                // undefined
    | ArgsArray                             // an array: not supported
    | ArgsText(s: string)                   // a string: becomes `{custom: s}`
    | ArgsObject(headers: Arg, query: Arg)

  /** A configured route value: a non-object value, or an object with a
      `timeout` (possibly `undefined`) and `cacheKeyArgs`. */
  datatype RawRoute = Scalar(v: Value) | Object(timeout: Value, cacheKeyArgs: RawArgs)

  /** Normalised `cacheKeyArgs`. */
  datatype KeyArgs = KeyArgs(headers: Arg, query: Arg, custom: Option<string>)

  /** A normalised route: its key, its timeout, its key arguments (present
      exactly when `cacheKeyArgs` is truthy) and its compiled matcher. */
  datatype Route = Route(key: string, timeout: Value, args: Option<KeyArgs>, matcher: Option<Matcher>)

  /** The first test of the loop (index.js:15-18): a non-object value is kept
      only if it is a boolean, the tag "increasing", or coerces to a number. */
  predicate KeepsScalar(v: Value): (b: bool)
    ensures b <==> v.Bool? || v.Num? || (v.Str? && (v.s == "increasing" || AllDigits(v.s)))
    ensures v.Undefined? || v.NaN? ==> !b
    ensures v == Str("") ==> b
  {
    v.Bool? || v == Str("increasing") || !IsNaN(v)
  }

  /** A string `headers`/`query` entry becomes a one-element list
      (index.js:50-56). */
  function NormaliseArg(a: Arg): (r: Arg)
    ensures !r.ArgText?
    ensures a.ArgText? ==> r == ArgList([a.s])
    ensures !a.ArgText? ==> r == a
  {
    match a
    case ArgText(s) => ArgList([s])
    case _ => a
  }

  /** The route a raw value normalises to, or `None` when it is dropped. */
  function NormaliseRoute(key: string, raw: RawRoute): (r: Option<Route>)
    ensures r.Some? ==> r.value.key == key && r.value.matcher == Compile(key)
    ensures r.Some? && r.value.args.Some? ==>
              !r.value.args.value.headers.ArgText? && !r.value.args.value.query.ArgText?
    ensures raw.Scalar? ==> (r.Some? <==> KeepsScalar(raw.v))
    ensures raw.Scalar? && r.Some? ==> r.value.timeout == raw.v && r.value.args.None?
    ensures raw.Object? ==> (r.None? <==> raw.cacheKeyArgs.ArgsArray?)
    ensures raw.Object? && r.Some? ==> r.value.timeout == raw.timeout
    ensures raw.Object? && raw.cacheKeyArgs.NoArgs? ==> r.Some? && r.value.args.None?
    ensures raw.Object? && raw.cacheKeyArgs.ArgsText? ==>
              r.Some? && r.value.args == Some(KeyArgs(ArgAbsent, ArgAbsent, Some(raw.cacheKeyArgs.s)))
    ensures raw.Object? && raw.cacheKeyArgs.ArgsObject? ==>
              && r.Some?
              && r.value.args == Some(KeyArgs(NormaliseArg(raw.cacheKeyArgs.headers), NormaliseArg(raw.cacheKeyArgs.query), None))
  {
    match raw
    case Scalar(v) =>
      if KeepsScalar(v) then Some(Route(key, v, None, Compile(key))) else None
    case Object(timeout, cka) =>
      match cka
      case ArgsArray => None
      case NoArgs => Some(Route(key, timeout, None, Compile(key)))
      case ArgsText(s) => Some(Route(key, timeout, Some(KeyArgs(ArgAbsent, ArgAbsent, Some(s))), Compile(key)))
      case ArgsObject(h, q) =>
        Some(Route(key, timeout, Some(KeyArgs(NormaliseArg(h), NormaliseArg(q), None)), Compile(key)))
  }

  function RouteKey(r: Route): string { r.key }
  function EntryKey(e: (string, RawRoute)): string { e.0 }

  /** `xs` is `ys` with some elements left out, order kept. */
  predicate Subsequence(xs: seq<string>, ys: seq<string>)
    decreases |ys|, |xs|
  {
    if |xs| == 0 then true
    else if |ys| == 0 then false
    else if xs[0] == ys[0] then Subsequence(xs[1..], ys[1..])
    else Subsequence(xs, ys[1..])
  }

  /** The whole normalisation loop (index.js:13-72): every entry is
      normalised in declaration order and the dropped ones disappear. */
  function NormaliseTable(entries: seq<(string, RawRoute)>): (routes: seq<Route>)
    ensures |routes| <= |entries|
    ensures Subsequence(Map(RouteKey, routes), Map(EntryKey, entries))
    ensures forall i :: 0 <= i < |routes| ==> routes[i].matcher == Compile(routes[i].key)
    ensures forall i :: 0 <= i < |routes| && routes[i].args.Some? ==>
              !routes[i].args.value.headers.ArgText? && !routes[i].args.value.query.ArgText?
  {
    if |entries| == 0 then []
    else
      var rest := NormaliseTable(entries[1..]);
      EntryKeysTail(entries);
      match NormaliseRoute(entries[0].0, entries[0].1)
      case None => SubsequenceSkip(Map(RouteKey, rest), Map(EntryKey, entries)); rest
      case Some(r) =>
        KeptKeyFirst(r, rest, entries);
        KeptRouteShape(entries[0].0, entries[0].1, rest);
        [r] + rest
  }

  /** A kept route has its compiled matcher and no string arguments, so
      putting it in front of a table with the same shape keeps the shape. */
  lemma KeptRouteShape(key: string, raw: RawRoute, rest: seq<Route>)
    requires NormaliseRoute(key, raw).Some?
    requires forall i :: 0 <= i < |rest| ==> rest[i].matcher == Compile(rest[i].key)
    requires forall i :: 0 <= i < |rest| && rest[i].args.Some? ==>
               !rest[i].args.value.headers.ArgText? && !rest[i].args.value.query.ArgText?
    ensures var routes := [NormaliseRoute(key, raw).value] + rest;
            && (forall i :: 0 <= i < |routes| ==> routes[i].matcher == Compile(routes[i].key))
            && (forall i :: 0 <= i < |routes| && routes[i].args.Some? ==>
                  !routes[i].args.value.headers.ArgText? && !routes[i].args.value.query.ArgText?)
  {
    var routes := [NormaliseRoute(key, raw).value] + rest;
    forall i | 0 < i < |routes| ensures routes[i] == rest[i - 1] { }
  }

  lemma EntryKeysTail(entries: seq<(string, RawRoute)>)
    requires |entries| > 0
    ensures Map(EntryKey, entries)[1..] == Map(EntryKey, entries[1..])
    ensures Map(EntryKey, entries)[0] == entries[0].0
  {
  }

  /** A kept entry heads both key lists, so the subsequence relation extends. */
  lemma KeptKeyFirst(r: Route, rest: seq<Route>, entries: seq<(string, RawRoute)>)
    requires |entries| > 0 && r.key == entries[0].0
    requires Subsequence(Map(RouteKey, rest), Map(EntryKey, entries[1..]))
    ensures Subsequence(Map(RouteKey, [r] + rest), Map(EntryKey, entries))
  {
    var xs := Map(RouteKey, [r] + rest);
    var ys := Map(EntryKey, entries);
    assert xs[0] == ys[0];
    assert xs[1..] == Map(RouteKey, rest);
    assert ys[1..] == Map(EntryKey, entries[1..]);
  }

  lemma SubsequenceSkip(xs: seq<string>, ys: seq<string>)
    requires |ys| > 0 && Subsequence(xs, ys[1..])
    ensures Subsequence(xs, ys)
    decreases |ys|, |xs|
  {
    if |xs| > 0 && xs[0] == ys[0] {
      SubsequenceTail(xs, ys[1..]);
    }
  }

  lemma SubsequenceTail(xs: seq<string>, ys: seq<string>)
    requires |xs| > 0 && Subsequence(xs, ys)
    ensures Subsequence(xs[1..], ys)
    decreases |ys|, |xs|
  {
    if |ys| > 0 {
      if xs[0] == ys[0] {
        SubsequenceSkip(xs[1..], ys);
      } else {
        SubsequenceTail(xs, ys[1..]);
        SubsequenceSkip(xs[1..], ys);
      }
    }
  }

  /** Keys of a table are distinct (they are object keys). */
  predicate DistinctRouteKeys(routes: seq<Route>) {
    forall i, j :: 0 <= i < j < |routes| ==> routes[i].key != routes[j].key
  }

  /** Where a configured entry ends up: an entry that survives normalisation
      is present in the table under its key, with the normalised value. */
  lemma {:induction false} NormaliseKeepsEntry(entries: seq<(string, RawRoute)>, i: nat)
    requires i < |entries|
    requires NormaliseRoute(entries[i].0, entries[i].1).Some?
    ensures NormaliseRoute(entries[i].0, entries[i].1).value in NormaliseTable(entries)
  {
    if i > 0 {
      assert entries[1..][i - 1] == entries[i];
      NormaliseKeepsEntry(entries[1..], i - 1);
    }
  }

  /** An entry that normalisation drops appears nowhere in the table, provided
      keys are distinct. */
  lemma {:induction false} NormaliseDropsEntry(entries: seq<(string, RawRoute)>, i: nat)
    requires i < |entries|
    requires forall a, b :: 0 <= a < b < |entries| ==> entries[a].0 != entries[b].0
    requires NormaliseRoute(entries[i].0, entries[i].1).None?
    ensures forall r :: r in NormaliseTable(entries) ==> r.key != entries[i].0
  {
    if i > 0 {
      assert entries[1..][i - 1] == entries[i];
      NormaliseDropsEntry(entries[1..], i - 1);
      if NormaliseRoute(entries[0].0, entries[0].1).Some? {
        assert entries[0].0 != entries[i].0;
      }
    } else {
      NormaliseKeysFrom(entries[1..]);
      forall r | r in NormaliseTable(entries[1..]) ensures r.key != entries[0].0 {
        var j :| 0 <= j < |entries[1..]| && entries[1..][j].0 == r.key;
        assert entries[j + 1].0 == r.key;
      }
    }
  }

  /** Every route in the table comes from an entry with the same key. */
  lemma {:induction false} NormaliseKeysFrom(entries: seq<(string, RawRoute)>)
    ensures forall r :: r in NormaliseTable(entries) ==>
              exists j :: 0 <= j < |entries| && entries[j].0 == r.key
  {
    if |entries| > 0 {
      NormaliseKeysFrom(entries[1..]);
      forall r | r in NormaliseTable(entries)
        ensures exists j :: 0 <= j < |entries| && entries[j].0 == r.key
      {
        if r in NormaliseTable(entries[1..]) {
          var j :| 0 <= j < |entries[1..]| && entries[1..][j].0 == r.key;
          assert entries[j + 1].0 == r.key;
        } else {
          assert entries[0].0 == r.key;
        }
      }
    }
  }
}

=== FILE: selection.dfy ===
/** The route-selection loop of the request handler (index.js:118-157): one
    pass over the routes in declaration order. */
module Selection {
  import opened Wrappers
  import opened Matcher
  import opened Routes

  /** The route claims the path: its key is the path, or its matcher accepts
      the path. */
  predicate Hits(r: Route, path: string) {
    r.key == path || (r.matcher.Some? && Test(r.matcher.value, path))
  }

  /** How the loop ends: `yield next` without caching, a `break` at the
      route with this index, or leaving the loop with no route chosen. */
  datatype Selection = Passthrough | Matched(index: nat) | FellThrough

  /** No route from `from` on claims the path. */
  predicate NoneHits(routes: seq<Route>, path: string, from: nat) {
    forall j :: from <= j < |routes| ==> !Hits(routes[j], path)
  }

  /** The loop from iteration `i` on. A route without a matcher that does not
      equal the path is skipped by `continue` before the end-of-table test, so
      when the last route is such a route the loop runs out instead of passing
      through. */
  function Scan(routes: seq<Route>, path: string, i: nat): (s: Selection)
    requires i <= |routes|
    decreases |routes| - i
    ensures s.Matched? ==>
              && i <= s.index < |routes| && Hits(routes[s.index], path)
              && forall j :: i <= j < s.index ==> !Hits(routes[j], path)
    ensures s.Passthrough? ==>
              i < |routes| && routes[|routes| - 1].matcher.Some? && NoneHits(routes, path, i)
    ensures s.FellThrough? ==>
              (i == |routes| || routes[|routes| - 1].matcher.None?) && NoneHits(routes, path, i)
  {
    if i == |routes| then FellThrough
    else if Hits(routes[i], path) then Matched(i)
    else if routes[i].matcher.None? then Scan(routes, path, i + 1)
    else if i == |routes| - 1 then Passthrough
    else Scan(routes, path, i + 1)
  }

  /** The selection for a request path (index.js:118, 123-157). */
  function Select(routes: seq<Route>, path: string): (s: Selection)
    ensures |routes| == 0 ==> s.Passthrough?
    ensures s.Matched? ==>
              && s.index < |routes| && Hits(routes[s.index], path)
              && forall j :: 0 <= j < s.index ==> !Hits(routes[j], path)
    ensures s.Passthrough? && |routes| > 0 ==>
              routes[|routes| - 1].matcher.Some? && NoneHits(routes, path, 0)
    ensures s.FellThrough? ==>
              |routes| > 0 && routes[|routes| - 1].matcher.None? && NoneHits(routes, path, 0)
  {
    if |routes| == 0 then Passthrough else Scan(routes, path, 0)
  }

  /** In a table without pattern routes, a path equal to some route's key
      selects that route, wherever it is declared. */
  lemma ExactKeyWinsWithoutPatterns(routes: seq<Route>, path: string, k: nat)
    requires DistinctRouteKeys(routes)
    requires forall j :: 0 <= j < |routes| ==> routes[j].matcher.None?
    requires k < |routes| && routes[k].key == path
    ensures Select(routes, path) == Matched(k)
  {
    assert Hits(routes[k], path);
  }

  /** A pattern route declared before an exact route for the same path takes
      the request. */
  lemma EarlierPatternBeatsLaterExact(routes: seq<Route>, path: string, j: nat, k: nat)
    requires j < k < |routes|
    requires routes[j].matcher.Some? && Test(routes[j].matcher.value, path)
    requires routes[k].key == path
    ensures Select(routes, path).Matched? && Select(routes, path).index <= j
  {
    assert Hits(routes[j], path);
  }
}

=== FILE: seqs.dfy ===
/** Sequence helpers shared by the route table and the step table. */
module Seqs {
  /** `xs.map(f)`: `f` applied to each element, order kept. */
  function Map<T, U>(f: T -> U, xs: seq<T>): (ys: seq<U>)
    ensures |ys| == |xs|
    ensures forall i :: 0 <= i < |xs| ==> ys[i] == f(xs[i])
  {
    seq(|xs|, i requires 0 <= i < |xs| => f(xs[i]))
  }
}

=== FILE: setup.dfy ===
/** What the engine builds once, when it is created (index.js:6-113): the
    normalised route table, whether the call counter exists, and the
    normalised adaptive step table with its key list. */
module Setup {
  import opened Wrappers
  import opened Js
  import opened Duration
  import opened Routes

  /** `routes` after normalisation; `counting` when `opts.callCnt` was
      created; `steps` is `opts.increasing` (`None` for undefined); `cntStep`
      is the key list of the step table captured before normalisation deleted
      anything. */
  datatype Config = Config(routes: seq<Route>, counting: bool, steps: Option<seq<Step>>, cntStep: seq<string>)

  /** Some configured value is the bare tag "increasing" (index.js:30-36). A
      timeout of "increasing" inside an object does not count. */
  predicate CreatesCounter(entries: seq<(string, RawRoute)>) {
    exists i :: 0 <= i < |entries| && entries[i].1 == Scalar(Str("increasing"))
  }

  /** Setup from the configured route entries and `opts.increasing`. The step
      table is defaulted and normalised only when the counter exists; the
      process default timeout is always 5000 ms, whatever was configured. */
  function Configure(entries: seq<(string, RawRoute)>, increasing: Option<seq<Step>>): (c: Config)
    ensures c.routes == NormaliseTable(entries)
    ensures c.counting <==> CreatesCounter(entries)
    ensures c.counting ==> c.steps.Some? && c.cntStep == Keys(increasing.GetOr(DefaultSteps))
    ensures c.counting ==> forall i :: 0 <= i < |c.steps.value| ==> !c.steps.value[i].value.Str?
    ensures c.counting && DistinctKeys(increasing.GetOr(DefaultSteps)) ==>
              forall k :: Lookup(c.steps.value, k) == NormalisedValue(Lookup(increasing.GetOr(DefaultSteps), k))
    ensures c.counting && increasing.None? ==> c.steps == Some(DefaultSteps) && c.cntStep == ["1", "3", "10", "20", "50"]
    ensures !c.counting ==> c.steps == increasing
  {
    var routes := NormaliseTable(entries);
    if CreatesCounter(entries) then
      var table := increasing.GetOr(DefaultSteps);
      NormaliseLookupAll(table);
      DefaultStepsNormalised();
      DefaultKeys();
      Config(routes, true, Some(NormaliseSteps(table)), Keys(table))
    else
      Config(routes, false, increasing, [])
  }

  /** `opts.defaultTimeout` (index.js:10). */
  const DefaultTimeout: int := 5000
}

=== FILE: text.dfy ===
/** String searching as `String.prototype.indexOf` and `replace` with a
    one-character pattern perform it. */
module Text {
  import opened Wrappers

  /** `t` occurs in `s` starting at position `i`. */
  predicate OccursAt(s: string, t: string, i: int) {
    0 <= i && i + |t| <= |s| && s[i..i + |t|] == t
  }

  /** `s.indexOf(t, from)` for `from <= |s|`: the first position at or after
      `from` where `t` occurs, or `None` for -1. */
  function IndexOf(s: string, t: string, from: nat): (r: Option<nat>)
    decreases |s| - from
    ensures r.Some? ==> from <= r.value && OccursAt(s, t, r.value)
    ensures r.Some? ==> forall j :: from <= j < r.value ==> !OccursAt(s, t, j)
    ensures r.None? ==> forall j :: from <= j ==> !OccursAt(s, t, j)
  {
    if from + |t| > |s| then None
    else if s[from..from + |t|] == t then Some(from)
    else IndexOf(s, t, from + 1)
  }

  /** `s.indexOf(t) != -1` */
  predicate Contains(s: string, t: string) {
    IndexOf(s, t, 0).Some?
  }

  /** `s.replace(c, '')` for a one-character pattern: only the first
      occurrence of `c` is removed. */
  function RemoveFirst(s: string, c: char): (r: string)
    ensures c !in s ==> r == s
    ensures c in s ==> |r| == |s| - 1
  {
    if |s| == 0 then s
    else if s[0] == c then s[1..]
    else [s[0]] + RemoveFirst(s[1..], c)
  }

  /** What `RemoveFirst` removes: exactly the first occurrence. */
  lemma {:induction false} RemoveFirstAt(s: string, c: char, i: nat)
    requires i < |s| && s[i] == c && c !in s[..i]
    ensures RemoveFirst(s, c) == s[..i] + s[i + 1..]
  {
    if i > 0 {
      assert s[0] == s[..i][0];
      assert s[1..][i - 1] == c;
      assert s[1..][..i - 1] == s[..i][1..];
      RemoveFirstAt(s[1..], c, i - 1);
      assert s[..i] == [s[0]] + s[1..][..i - 1];
      assert s[1..][i..] == s[i + 1..];
    }
  }
}

=== FILE: wrappers.dfy ===
/** The optional-value datatype shared by every module of the model. */
module Wrappers {

  /** Either a value or nothing; stands in for JavaScript's `undefined` result. */
  datatype Option<+T> = None | Some(value: T) {

    /** The value, or `default` when there is none. */
    function GetOr(default: T): T {
      match this
      case Some(v) => v
      case None => default
    }
  }
}
